=== FILE: README.md ===
# Raw Standard MIDI File codec

A Dafny model of the byte-level codec in `rawmidifile.py`, which reads and writes Standard MIDI Files (SMF). It models every step of that codec:

- **Header.** The codec reads and writes the "MThd" header chunk. Its three fields are signed 16-bit big-endian values: format, track count and resolution.
- **Tracks.** Each "MTrk" track chunk holds a run of events. An event is a variable-length delta time followed by the raw bytes of one message.
- **Message kinds.** Meta events start with 0xFF and sysex messages with 0xF0 or 0xF7. Channel and system-common messages have a length fixed by their status byte.
- **Running status.** A channel message may leave out its status byte when it repeats the previous one.

A stream is a `seq<byte>` with an explicit cursor, and a read inside a track is bounded by the track's end. Where the source raises an exception, the model returns an `Err` of a small error datatype. The reader and the writer each pass their running status along explicitly.

Modules, in dependency order:

- `Results` (results.dfy): the byte type, `Option`, `Result` and the error kinds.
- `Sequences` (sequences.dfy): slicing and concatenation facts about byte runs.
- `Fields` (fields.dfy): big-endian 16/32-bit fields and the signed 16-bit packing `struct` performs.
- `VarInt` (varint.dfy): the variable-length quantity.
- `Messages` (messages.dfy): the message-length table, and the readers for channel, sysex and meta messages.
- `Chunks` (chunks.dfy): chunk headers and the file header.
- `Tracks` (tracks.dfy): the track decoder and encoder.
- `RoundTrip` (roundtrip.dfy): decoding what the encoder wrote, from single messages up to a whole track.
- `MidiFile` (midifile.dfy): reading and writing a whole file.
- `Findings` (findings.dfy): the sysex length defect in the writer.

The central results are these:

- `RoundTrip.ReadWrittenTrack`: a track chunk the writer produced reads back as the same events. It holds when every message is one of three kinds (`RoundTrip.Encodable`):
  - a meta event;
  - a sysex message framed by 0xF0 and 0xF7 whose interior neither starts with 0xF0 nor ends with 0xF7, because the reader strips those;
  - a channel or system-common message other than 0xFF, whose length matches the table and whose data bytes are all below 0x80.

  Other messages need not come back. `F0 F0 01 F7` comes back as `F0 01 F7`. When `90 90 40` follows another 0x90 message, the writer drops its status byte. The reader then takes its first data byte, 0x90, for a status byte.
- `MidiFile.ReadWrittenRawMidiFile`: a whole written file reads back as the format, resolution and tracks it was written from, when every message is `Encodable`.
- `VarInt.EncodeVarIntUnique`: the variable-length encoding is the only canonical digit string of its value.

## Model

| member | source | states |
|---|---|---|
| Fields.ToBE32 | rawmidifile.py:174 | the 4-byte big-endian length field decodes to the length it encodes |
| Fields.BE32Injective | rawmidifile.py:14 | every 4 bytes are the big-endian encoding of the unsigned value they unpack to, so the size field is read losslessly |
| Fields.UnpackInt16 | rawmidifile.py:28 | a signed 16-bit field lies in [-0x8000, 0x8000) and agrees with its unsigned reading modulo 2^16 |
| Fields.PackInt16 | rawmidifile.py:219-221 | packing a 16-bit signed field succeeds exactly for values in [-0x8000, 0x8000), gives two bytes that unpack to the value, and otherwise fails with OutOfRange |
| VarInt.EncodeVarInt | rawmidifile.py:45-67 | the encoding is non-empty, its last byte is below 0x80, and it is one byte long exactly for values below 0x80 |
| VarInt.ContinuedShape | rawmidifile.py:62-64 | every byte before the last carries the high bit, and the leading byte is never the bare 0x80 |
| VarInt.EncodeVarIntCanonical | rawmidifile.py:54-67 | the encoding is canonical: no leading zero digit, high bit on every byte but the last, and only zero encodes as [0] |
| VarInt.EncodeVarIntValue | rawmidifile.py:55-57 | the base-128 digits of the encoding add up to the encoded value |
| VarInt.EncodeVarIntUnique | rawmidifile.py:45-67 | any canonical digit string whose value is n is the encoding of n, so the encoder is the inverse of reading |
| VarInt.EncodeVarIntBoundaries | rawmidifile.py:45-67 | the encodings of 0, 127, 128, 16383 and 16384 are the SMF standard's examples |
| VarInt.ReadVarIntFrom | rawmidifile.py:38-42 | the loop stops strictly after its start and within the track, and fails only with Truncated |
| VarInt.ReadVarInt | rawmidifile.py:35-42 | reading a quantity consumes at least one byte inside the track and fails only with Truncated |
| VarInt.ReadVarIntFromSpec | rawmidifile.py:38-42 | the loop succeeds exactly when a byte below 0x80 occurs before the end; it stops just after the first one and folds the low seven bits of the bytes read into the value |
| VarInt.ReadVarIntSpec | rawmidifile.py:35-42 | a read stops right after the first byte below 0x80, and its value is the base-128 value of the bytes consumed |
| VarInt.ReadEncodedVarInt | rawmidifile.py:35-67 | reading the encoding of n gives n back and stops just past the encoding |
| Messages.GetMsgLen | rawmidifile.py:70-86 | channel status bytes give 3, or 2 for 0xC0-0xDF; the system-common and real-time table gives 1-3; every other byte (data bytes, 0xF0, 0xF4, 0xF5, 0xF7, 0xF9, 0xFD) has no length |
| Messages.ReadBytes | rawmidifile.py:94 | a read of n bytes succeeds exactly when they lie before the track end, returns those bytes, and advances past them; a negative size reads to the end of the stream and succeeds only when the track ends there |
| Messages.ReadMessage | rawmidifile.py:89-96 | a message starts with its status byte, ends within the track, and fails only on an unknown status or a short read |
| Messages.ReadMessageSpec | rawmidifile.py:89-96 | an unknown status fails, the peeked byte becomes the first data byte, the rest comes from the stream, and when the table length covers the peek the read succeeds exactly when the message fits, with the table length |
| Messages.ReadMessageToEnd | rawmidifile.py:93-94 | a one-byte status reached under running status asks for -1 bytes and so takes the rest of the stream: it succeeds only when the track ends with the stream |
| Messages.StripLeading | rawmidifile.py:105 | the stripped bytes are a suffix of the input, every removed byte is 0xF0, and the result does not start with 0xF0 |
| Messages.StripTrailing | rawmidifile.py:105 | the stripped bytes are a prefix of the input, every removed byte is 0xF7, and the result does not end with 0xF7 |
| Messages.SysexInteriorClean | rawmidifile.py:105 | the stripped payload neither starts with 0xF0 nor ends with 0xF7 |
| Messages.SysexInteriorSlice | rawmidifile.py:105 | the stripped payload is a contiguous slice of the payload with only 0xF0 before it and only 0xF7 after it |
| Messages.SysexInteriorOfClean | rawmidifile.py:105 | stripping a clean interior followed by 0xF7 gives the interior back |
| Messages.SysexMessage | rawmidifile.py:105-107 | the result is framed by 0xF0 and 0xF7 around the stripped payload |
| Messages.ReadSysex | rawmidifile.py:99-107 | a sysex read consumes at least one byte inside the track, fails only with Truncated, and returns a message framed by 0xF0 and 0xF7 around a clean interior |
| Messages.ReadMetaMessage | rawmidifile.py:110-114 | a meta read returns a message that is_meta accepts, ends within the track, and fails only with Truncated |
| Messages.ReadMetaMessageSpec | rawmidifile.py:110-114 | the result is 0xFF, the type byte at the cursor, and exactly as many payload bytes as the length after the type byte declares |
| Chunks.ReadChunkHeader | rawmidifile.py:7-14 | a chunk header reads exactly when eight bytes remain, giving the 4-byte tag and the unsigned big-endian size; otherwise it fails with Truncated |
| Chunks.WriteChunk | rawmidifile.py:169-175 | a chunk writes exactly when its data length fits 32 bits, as the tag, the big-endian length and the data; otherwise OutOfRange |
| Chunks.ReadWrittenChunk | rawmidifile.py:169-175 | reading a written chunk's header gives back its tag and the data length, and the data follows the header |
| Chunks.ReadFileHeader | rawmidifile.py:17-28 | fewer than eight bytes fail with Truncated; a chunk that is not "MThd" fails with NotMidiFile; an "MThd" chunk reads exactly when the declared size, cut short by the end of the stream, gives at least six bytes, and fails with Truncated otherwise; a successful read gives three signed 16-bit fields packed from the first six payload bytes and leaves the cursor after the bytes delivered |
| Chunks.PackUnpackInt16 | rawmidifile.py:28 | packing an unpacked 16-bit field gives back its two bytes |
| Chunks.WriteFileHeader | rawmidifile.py:219-222 | the header writes exactly when all three fields fit a signed 16-bit value, otherwise OutOfRange; it is an "MThd" chunk of declared length 6 holding the three packed fields, and it reads back as the same header |
| Chunks.ReadWrittenHeader | rawmidifile.py:17-28 | reading a written "MThd" chunk gives the three unpacked fields and stops after the six field bytes |
| Tracks.DecodedIsMeta | rawmidifile.py:242-243 | among the messages the reader produces, is_meta holds exactly for those 0xFF opens |
| Tracks.ReadBody | rawmidifile.py:148-156 | the message read is well shaped, opens with the effective status byte (0xF7 read back as 0xF0), and fails only on a short read or an unknown status |
| Tracks.ReadBodyKeepsPeek | rawmidifile.py:140-156 | a channel or system-common message keeps the byte peeked under running status as its first data byte |
| Tracks.DecodeEvent | rawmidifile.py:133-158 | a decoded event consumes bytes within the track and its message is well shaped |
| Tracks.DecodeEventSpec | rawmidifile.py:133-158 | a data byte with no running status is exactly the NoRunningStatus case; the delta is the quantity read; a data byte reuses and keeps the running status; a status byte becomes the running status unless it is 0xFF |
| Tracks.ReadEvents | rawmidifile.py:128-160 | every decoded message is well shaped, an empty payload gives no events, and a non-empty one at least one |
| Tracks.ReadTrack | rawmidifile.py:117-160 | a track read ends after the chunk header and within the stream |
| Tracks.ReadTrackSpec | rawmidifile.py:117-160 | a chunk not tagged "MTrk" fails with NoTrackHeader; a successful read ends exactly at the declared size past the header and yields only well-shaped messages |
| Tracks.EncodeEvent | rawmidifile.py:182-207 | the delta time comes first; a channel or system-common message follows with its status byte left out exactly when it equals the running status, and sets the running status below 0xF0, clearing it otherwise; meta and sysex events clear the running status (their byte layouts are RoundTrip.EncodeMetaShape and RoundTrip.EncodeSysexShape); only an empty message fails |
| Tracks.EncodeEventAsWritten | rawmidifile.py:190-195 | as the source spells it, every sysex event fails with NoDataAttribute, and anything that does write is written as EncodeEvent writes it |
| Tracks.EncodeEvents | rawmidifile.py:181-207 | encoding a track fails exactly when some event has an empty message, and writes at least one byte per event |
| Tracks.WriteTrack | rawmidifile.py:178-209 | a track writes exactly when its events encode and their bytes fit a 32-bit length, and the chunk starts with "MTrk" |
| RoundTrip.EncodableKindsDisjoint | rawmidifile.py:185-196 | meta events, framed sysex messages and channel messages never overlap, and a channel message is neither meta nor opened by 0xF0, so is_meta and the 0xF0 test send each kind down its own branch of the writer |
| RoundTrip.ReadMetaParts | rawmidifile.py:110-114 | a meta read is 0xFF, the type byte, then the payload whose length follows the type byte |
| RoundTrip.MetaTailLayout | rawmidifile.py:185-188 | after its 0xFF a written meta event holds the type byte, a length that reads back as the payload length, and the payload |
| RoundTrip.ReadEncodedMeta | rawmidifile.py:110-114 | reading the bytes written for a meta event gives back the whole meta message and stops right after it |
| RoundTrip.ReadSysexParts | rawmidifile.py:99-107 | a sysex read is the framed strip of exactly as many bytes as the declared length |
| RoundTrip.SysexMessageOfTail | rawmidifile.py:105-107 | framing the stripped tail of a framed sysex message rebuilds the message |
| RoundTrip.ReadEncodedSysex | rawmidifile.py:99-107 | reading the bytes written for a framed sysex message gives back the message and stops right after it |
| RoundTrip.ReadEncodedChannel | rawmidifile.py:89-96 | reading the data bytes of a channel message, with or without the peeked first data byte, gives the message back |
| RoundTrip.EncodeMetaShape | rawmidifile.py:185-189 | a meta event is written as the delta, 0xFF, the type byte, the payload length and the payload, and clears the running status |
| RoundTrip.EncodeSysexShape | rawmidifile.py:190-195 | every non-meta message opened by 0xF0, framed or not, is written as the delta, 0xF0, the length of the rest and the rest, and clears the running status |
| RoundTrip.EncodeRunningShape | rawmidifile.py:199-200 | a channel message repeating the running status is written without its status byte and keeps the running status |
| RoundTrip.EncodeStatusShape | rawmidifile.py:201-207 | any other channel or system-common message is written whole and sets the running status below 0xF0, clearing it otherwise |
| RoundTrip.EventLayout | rawmidifile.py:133-135 | in an encoded event, the delta time reads back and the byte after it is the one the encoder wrote |
| RoundTrip.DecodeStatusEvent | rawmidifile.py:142-156 | an event with a status byte decodes to that message and makes the byte the running status unless it is 0xFF |
| RoundTrip.DecodeRunningEvent | rawmidifile.py:137-141 | an event with a data byte decodes under the running status and keeps it |
| RoundTrip.DecodeMetaEvent | rawmidifile.py:143-149 | a written meta event decodes to itself and leaves the reader's running status alone |
| RoundTrip.DecodeSysexEvent | rawmidifile.py:151-154 | a written sysex event decodes to itself and makes 0xF0 the reader's running status |
| RoundTrip.DecodeChannelEvent | rawmidifile.py:142-156 | a channel message written whole decodes to itself and makes its status the running status |
| RoundTrip.DecodeRunningChannelEvent | rawmidifile.py:137-141 | a channel message written without its status decodes to itself when the reader's running status is that byte |
| RoundTrip.ReadEncodedEvent | rawmidifile.py:133-207 | when its message is Encodable, decoding one encoded event gives it back, consumes exactly its bytes, and keeps the writer's and reader's running statuses in step |
| RoundTrip.EncodeEventsStep | rawmidifile.py:182-207 | the encoded track is the first event's bytes followed by the rest encoded from the running status the first leaves |
| RoundTrip.EventsLayout | rawmidifile.py:182-207 | the first event's bytes are followed by exactly the bytes of the rest of the track |
| RoundTrip.ReadEventsStep | rawmidifile.py:128-158 | one decoded event followed by the decoded rest is the decoded payload |
| RoundTrip.ReadEncodedEvents | rawmidifile.py:128-207 | when every message is Encodable, decoding an encoded run of events from in-step running statuses gives back the events |
| RoundTrip.ReadTrackParts | rawmidifile.py:117-131 | a track read is the event loop over the payload, ending at the declared size |
| RoundTrip.ReadWrittenTrack | rawmidifile.py:117-209 | when every message is Encodable, a written track chunk reads back as the same events and ends exactly after the chunk |
| MidiFile.ReadTracks | rawmidifile.py:237 | reading count tracks gives exactly count tracks, within the stream |
| MidiFile.Indices | rawmidifile.py:237 | range(n) yields 0 up to n - 1 in order, and nothing when n is not positive |
| MidiFile.TrackCount | rawmidifile.py:237 | as many tracks are read as range(num_tracks) yields indices |
| MidiFile.ReadRawMidiFile | rawmidifile.py:228-239 | a file read reports the header's format and resolution and as many tracks as the header announces (none for a negative count), and a header failure is the file's failure |
| MidiFile.WriteTracks | rawmidifile.py:224-225 | the tracks write exactly when each track writes, at least a chunk header each |
| MidiFile.WriteRawMidiFile | rawmidifile.py:212-225 | a file writes exactly when format, track count and resolution fit 16 bits and each track writes; out-of-range header fields give OutOfRange; the output starts with "MThd" |
| MidiFile.WriteTracksStep | rawmidifile.py:224-225 | the written tracks are the first track's chunk followed by the rest |
| MidiFile.TracksLayout | rawmidifile.py:224-225 | in written tracks the first track chunk's bytes are followed by exactly the bytes of the other tracks |
| MidiFile.ReadTracksStep | rawmidifile.py:237 | one track read followed by the rest is the tracks read |
| MidiFile.ReadWrittenTracks | rawmidifile.py:224-237 | when every message of every track is Encodable, reading as many tracks as were written gives them back |
| MidiFile.ReadWrittenFileHeader | rawmidifile.py:219-222 | a written header at the start of a stream reads back as itself |
| MidiFile.ReadWrittenRawMidiFile | rawmidifile.py:212-239 | when every message of every track is Encodable, a written file reads back as the format, resolution and tracks it was written from |
| Findings.ShortSysexCounterexample | rawmidifile.py:193 | the sysex message F0 01 F7 fails to write as the source spells it, while the corrected encoder writes 00 F0 02 01 F7 |
| Findings.ShortSysexReadsBack | rawmidifile.py:193 | the corrected bytes 00 F0 02 01 F7 decode back to the event |
| Findings.AsWrittenSysexFails | rawmidifile.py:190-195 | every framed sysex event fails as written but writes with the corrected length |

## Left out

- File paths (rawmidifile.py:214-217 and 229-231): opening a named file is I/O. Only the stream form is modelled, with the stream given as a byte sequence.
- `print_event` (rawmidifile.py:163-166) is console output.
- The possible RIFF wrapper (rawmidifile.py:12) is a TODO in the source with no behaviour.
- Exceptions: `EOFError`, `IOError`, `KeyError`, `IndexError`, `TypeError`, `AttributeError` and `struct.error` become kinds of the `Error` datatype. `IndexError` is raised by `msg[0]` on an empty message (rawmidifile.py:190) and becomes `EmptyMessage`. Their message texts are not modelled.
- Tracks.Event: the delta time is typed `nat`. A negative delta time makes `encode_variable_int` loop forever, because `while value:` never sees 0 when `-1 >> 7 == -1` (rawmidifile.py:55-57, called at line 183). The model leaves that non-terminating case out rather than modelling a hang.
- Partial output: on a write failure the source may already have written earlier chunks. The model returns only the error.
- Tracks.ReadTrack: every read inside a track is bounded by the declared end. In the source a read may run past that end, but then the position can never equal the end again, so the loop cannot finish. The one exception is a short read at the end of the stream, which the model treats as a failure.
- Tracks.ReadTrack: a declared track size larger than the rest of the stream fails at once. The source also always fails, because its position can never reach the declared end. It fails later, at the first error while decoding the events: `EOFError` when a read runs out of bytes, `IOError` for a data byte with no running status (rawmidifile.py:139), or `KeyError` for an unknown status (rawmidifile.py:86).
- MidiFile.ReadRawMidiFile: bytes after the last announced track are not examined, as in the source.
- The repository's other files are not part of this model:
  - `mido_midifile.py`, `midict_midifile.py` and `meep_midifile.py` are thin adapters. Their logic is calls into the `mido`, `midict` and `meep` libraries (`from_bytes`, meta-message builders), which are not available here, plus a local `meta_specs` table.
  - `hexdump_midifile.py` is a command-line script that only prints.

The model follows the code in these places:

- A meta event does not change the decoder's running status.
- A sysex event makes 0xF0 or 0xF7 the running status, and a data byte under that status is dropped.
- Stripping removes every leading 0xF0 and every trailing 0xF7, not just one of each.
- The writer emits `msg[1:]` for a sysex event, so the closing 0xF7 is counted in its length.

## Findings

| source | as written | input that shows it | evidently intended | confidence | as-written member | corrected member |
|---|---|---|---|---|---|---|
| rawmidifile.py:193 | the sysex length is `len(msg.data) + 1`, but messages are byte strings with no `data` attribute, so every sysex event raises | the event (0, F0 01 F7) | the length of everything after the 0xF0, `len(msg) - 1`, which reads back unchanged | not executed | Tracks.EncodeEventAsWritten, Findings.ShortSysexCounterexample | Tracks.EncodeEvent, Findings.ShortSysexReadsBack |

=== FILE: chunks.dfy ===
/** Chunk framing (a 4-byte tag, a 4-byte big-endian length, the payload)
    and the "MThd" file header chunk. */
module Chunks {
  import opened Results
  import opened Sequences
  import opened Fields

  /** The tag "MThd" of the file header chunk. */
  const HeaderTag: seq<byte> := [0x4D, 0x54, 0x68, 0x64]
  /** The tag "MTrk" of a track chunk. */
  const TrackTag: seq<byte> := [0x4D, 0x54, 0x72, 0x6B]

  /** The number of bytes of the header payload that carry fields. */
  const HeaderFieldsLength: nat := 6

  datatype ChunkHeader = ChunkHeader(tag: seq<byte>, size: nat)

  /** Format, track count and resolution, each a signed 16-bit field. */
  datatype FileHeader = FileHeader(format: int, numTracks: int, resolution: int)

  /** `read_chunk_header`: the tag and declared length of the chunk at `pos`,
      and the position of its payload; fails unless eight bytes remain. */
  function ReadChunkHeader(s: seq<byte>, pos: nat): (r: Result<(ChunkHeader, nat)>)
    requires pos <= |s|
    ensures r.Ok? <==> pos + 8 <= |s|
    ensures r.Err? ==> r.error == Truncated
    ensures r.Ok? ==> r.value.1 == pos + 8 && |r.value.0.tag| == 4 && r.value.0.tag == s[pos..pos + 4]
    ensures r.Ok? ==> r.value.0.size < TwoTo32 && ToBE32(r.value.0.size) == s[pos + 4..pos + 8]
  {
    if pos + 8 > |s| then Err(Truncated)
    else
      BE32Injective(s[pos + 4..pos + 8]);
      Ok((ChunkHeader(s[pos..pos + 4], FromBE32(s[pos + 4..pos + 8])), pos + 8))
  }

  /** `write_chunk`: the tag, the payload length and the payload; the length
      must fit the 4-byte unsigned field. */
  function WriteChunk(tag: seq<byte>, data: seq<byte>): (r: Result<seq<byte>>)
    ensures r.Ok? <==> |data| < TwoTo32
    ensures r.Err? ==> r.error == OutOfRange
    ensures r.Ok? ==> |r.value| == |tag| + 4 + |data| && r.value[..|tag|] == tag && r.value[|tag| + 4..] == data
    ensures r.Ok? ==> r.value[|tag|..|tag| + 4] == ToBE32(|data|)
  {
    if |data| < TwoTo32 then Ok(tag + ToBE32(|data|) + data) else Err(OutOfRange)
  }

  /** Round trip: a written chunk with a 4-byte tag reads back as that tag
      and the payload length, wherever it sits in a stream. */
  lemma ReadWrittenChunk(s: seq<byte>, pos: nat, tag: seq<byte>, data: seq<byte>)
    requires |tag| == 4 && WriteChunk(tag, data).Ok?
    requires pos + |WriteChunk(tag, data).value| <= |s|
    requires s[pos..pos + |WriteChunk(tag, data).value|] == WriteChunk(tag, data).value
    ensures ReadChunkHeader(s, pos) == Ok((ChunkHeader(tag, |data|), pos + 8))
    ensures s[pos + 8..pos + 8 + |data|] == data
  {
    var w := WriteChunk(tag, data).value;
    SliceOfSlice(s, pos, w, 0, 4);
    SliceOfSlice(s, pos, w, 4, 8);
    SliceOfSlice(s, pos, w, 8, |w|);
    assert w[4..8] == ToBE32(|data|);
  }

  /** How many payload bytes `infile.read(size)` delivers for the chunk at
      `pos`: the declared size, cut short by the end of the stream. */
  function PayloadAvailable(s: seq<byte>, pos: nat): nat
    requires pos + 8 <= |s|
  {
    var size := FromBE32(s[pos + 4..pos + 8]);
    if pos + 8 + size <= |s| then size else |s| - (pos + 8)
  }

  /** `read_file_header`: the "MThd" chunk at `pos` and its three fields.
      The payload read is cut short by the end of the stream; fewer than six
      bytes fail. Payload bytes past the sixth are skipped. */
  function ReadFileHeader(s: seq<byte>, pos: nat): (r: Result<(FileHeader, nat)>)
    requires pos <= |s|
    ensures r.Ok? ==> pos + 8 + HeaderFieldsLength <= r.value.1 <= |s| && s[pos..pos + 4] == HeaderTag
    ensures pos + 8 > |s| ==> r == Err(Truncated)
    ensures pos + 8 <= |s| && s[pos..pos + 4] != HeaderTag ==> r == Err(NotMidiFile)
    ensures pos + 8 <= |s| && s[pos..pos + 4] == HeaderTag ==>
      && (r.Ok? <==> PayloadAvailable(s, pos) >= HeaderFieldsLength)
      && (r.Err? ==> r.error == Truncated)
    ensures r.Ok? ==> r.value.1 == pos + 8 + PayloadAvailable(s, pos)
    ensures r.Ok? ==> var h := r.value.0;
      && -0x8000 <= h.format < 0x8000 && -0x8000 <= h.numTracks < 0x8000 && -0x8000 <= h.resolution < 0x8000
      && PackInt16(h.format) == Ok(s[pos + 8..pos + 10])
      && PackInt16(h.numTracks) == Ok(s[pos + 10..pos + 12])
      && PackInt16(h.resolution) == Ok(s[pos + 12..pos + 14])
  {
    var chunk :- ReadChunkHeader(s, pos);
    var (header, p) := chunk;
    if header.tag != HeaderTag then Err(NotMidiFile)
    else
      var available := if p + header.size <= |s| then header.size else |s| - p;
      if available < HeaderFieldsLength then Err(Truncated)
      else
        var f, n, res := s[p..p + 2], s[p + 2..p + 4], s[p + 4..p + 6];
        PackUnpackInt16(f);
        PackUnpackInt16(n);
        PackUnpackInt16(res);
        Ok((FileHeader(UnpackInt16(f), UnpackInt16(n), UnpackInt16(res)), p + available))
  }

  /** Packing a field that was unpacked gives back its bytes. */
  lemma PackUnpackInt16(b: seq<byte>)
    requires |b| == 2
    ensures PackInt16(UnpackInt16(b)) == Ok(b)
  {
    BE16Injective(b);
  }

  /** The header chunk `write_rawmidifile` writes: "MThd", length 6, then
      format, track count and resolution packed as signed 16-bit fields. */
  function WriteFileHeader(h: FileHeader): (r: Result<seq<byte>>)
    ensures r.Ok? <==> -0x8000 <= h.format < 0x8000 && -0x8000 <= h.numTracks < 0x8000 && -0x8000 <= h.resolution < 0x8000
    ensures r.Err? ==> r.error == OutOfRange
    ensures r.Ok? ==> |r.value| == 8 + HeaderFieldsLength && ReadFileHeader(r.value, 0) == Ok((h, |r.value|))
    ensures r.Ok? ==> ReadChunkHeader(r.value, 0) == Ok((ChunkHeader(HeaderTag, HeaderFieldsLength), 8))
    ensures r.Ok? ==> r.value[8..] == PackInt16(h.format).value + PackInt16(h.numTracks).value + PackInt16(h.resolution).value
  {
    var f :- PackInt16(h.format);
    var n :- PackInt16(h.numTracks);
    var res :- PackInt16(h.resolution);
    var fields := f + n + res;
    // six bytes always fit the length field
    var w := WriteChunk(HeaderTag, fields).value;
    assert fields[..2] == f && fields[2..4] == n && fields[4..] == res;
    ReadWrittenHeader(w, 0, fields);
    Ok(w)
  }

  /** A written "MThd" chunk, wherever it sits, reads back as the three
      fields it packs and leaves the cursor right after them. */
  lemma ReadWrittenHeader(s: seq<byte>, pos: nat, fields: seq<byte>)
    requires |fields| == HeaderFieldsLength && WriteChunk(HeaderTag, fields).Ok?
    requires pos + |WriteChunk(HeaderTag, fields).value| <= |s|
    requires s[pos..pos + |WriteChunk(HeaderTag, fields).value|] == WriteChunk(HeaderTag, fields).value
    ensures ReadFileHeader(s, pos).Ok?
    ensures ReadFileHeader(s, pos).value.1 == pos + 8 + HeaderFieldsLength
    ensures ReadFileHeader(s, pos).value.0 ==
      FileHeader(UnpackInt16(fields[..2]), UnpackInt16(fields[2..4]), UnpackInt16(fields[4..]))
  {
    ReadWrittenChunk(s, pos, HeaderTag, fields);
    var p := pos + 8;
    SliceOfSlice(s, p, fields, 0, 2);
    SliceOfSlice(s, p, fields, 2, 4);
    SliceOfSlice(s, p, fields, 4, 6);
  }
}

=== FILE: fields.dfy ===
/** Fixed-width big-endian integer fields: the 4-byte unsigned chunk length
    and the 2-byte signed header fields of a Standard MIDI File. */
module Fields {
  import opened Results

  const TwoTo16: nat := 0x1_0000
  const TwoTo32: nat := 0x1_0000_0000

  /** The unsigned value of two bytes, most significant first. */
  function FromBE16(b: seq<byte>): (r: nat)
    requires |b| == 2
    ensures r < TwoTo16
  {
    (b[0] as int) * 0x100 + b[1]
  }

  /** The two bytes, most significant first, whose value is `n`. */
  function ToBE16(n: nat): (r: seq<byte>)
    requires n < TwoTo16
    ensures |r| == 2 && FromBE16(r) == n
  {
    [n / 0x100, n % 0x100]
  }

  lemma BE16Injective(b: seq<byte>)
    requires |b| == 2
    ensures ToBE16(FromBE16(b)) == b
  {
  }

  /** The unsigned value of four bytes, most significant first (struct format `>L`). */
  function FromBE32(b: seq<byte>): (r: nat)
    requires |b| == 4
    ensures r < TwoTo32
  {
    FromBE16(b[..2]) * TwoTo16 + FromBE16(b[2..])
  }

  /** The four bytes, most significant first, whose value is `n`. */
  function ToBE32(n: nat): (r: seq<byte>)
    requires n < TwoTo32
    ensures |r| == 4 && FromBE32(r) == n
  {
    var r := ToBE16(n / TwoTo16) + ToBE16(n % TwoTo16);
    assert r[..2] == ToBE16(n / TwoTo16) && r[2..] == ToBE16(n % TwoTo16);
    r
  }

  /** Four bytes are recovered from their value: the length field of a chunk
      header says exactly which bytes it was read from. */
  lemma BE32Injective(b: seq<byte>)
    requires |b| == 4
    ensures ToBE32(FromBE32(b)) == b
  {
    var hi, lo := FromBE16(b[..2]), FromBE16(b[2..]);
    assert FromBE32(b) / TwoTo16 == hi && FromBE32(b) % TwoTo16 == lo;
    BE16Injective(b[..2]);
    BE16Injective(b[2..]);
    assert b == b[..2] + b[2..];
  }

  /** Two bytes read as a signed two's-complement number (struct format `>h`). */
  function UnpackInt16(b: seq<byte>): (r: int)
    requires |b| == 2
    ensures -0x8000 <= r < 0x8000
    ensures r % TwoTo16 == FromBE16(b)
  {
    var v := FromBE16(b);
    if v >= 0x8000 then v - TwoTo16 else v
  }

  /** Two bytes holding `x` as a signed two's-complement number; `struct.pack`
      refuses a value outside the signed 16-bit range. */
  function PackInt16(x: int): (r: Result<seq<byte>>)
    ensures r.Ok? <==> -0x8000 <= x < 0x8000
    ensures r.Ok? ==> |r.value| == 2 && UnpackInt16(r.value) == x
    ensures r.Err? ==> r.error == OutOfRange
  {
    if -0x8000 <= x < 0x8000 then Ok(ToBE16(x % TwoTo16)) else Err(OutOfRange)
  }
}

=== FILE: findings.dfy ===
/** The sysex length the writer computes, as the source spells it and as
    it is evidently meant. */
module Findings {
  import opened Results
  import opened VarInt
  import opened Messages
  import opened Tracks
  import opened RoundTrip

  /** The shortest sysex event with a payload: 0xF0, one data byte, 0xF7. */
  const ShortSysex: Event := Event(0, [0xF0, 0x01, 0xF7])

  /** The bytes the corrected writer gives for `ShortSysex`. */
  const ShortSysexBytes: seq<byte> := [0x00, 0xF0, 0x02, 0x01, 0xF7]

  /** As written, the writer fails on `ShortSysex`; corrected, it writes the
      delta 0, the 0xF0, the length 2 of what follows, and the rest. */
  lemma ShortSysexCounterexample()
    ensures EncodeEventAsWritten(ShortSysex, None) == Err(NoDataAttribute)
    ensures EncodeEvent(ShortSysex, None) == Ok((ShortSysexBytes, None))
  {
    var msg := ShortSysex.msg;
    assert EncodeVarInt(0) == [0x00] && EncodeVarInt(2) == [0x02];
    assert FramedSysex(msg);
    EncodeSysexShape(ShortSysex, None);
    assert msg[1..] == [0x01, 0xF7];
    assert SysexTail(msg) == [0x02, 0x01, 0xF7];
    assert EncodeVarInt(0) + [SysexStart] + SysexTail(msg) == ShortSysexBytes;
  }

  /** The reader gives `ShortSysex` back from the corrected writer's bytes. */
  lemma ShortSysexReadsBack()
    ensures DecodeEvent(ShortSysexBytes, 0, 5, None).Ok?
    ensures DecodeEvent(ShortSysexBytes, 0, 5, None).value.0 == ShortSysex
    ensures DecodeEvent(ShortSysexBytes, 0, 5, None).value.1 == 5
  {
    var s := ShortSysexBytes;
    ShortSysexCounterexample();
    assert FramedSysex(ShortSysex.msg);
    assert s[0..5] == s;
    ReadEncodedEvent(s, 0, 5, ShortSysex, None, None, 5);
  }

  /** As written, every framed sysex event fails to be written, whatever
      the running status; with the corrected length it is written. */
  lemma AsWrittenSysexFails(ev: Event, rs: Option<byte>)
    requires FramedSysex(ev.msg)
    ensures EncodeEventAsWritten(ev, rs) == Err(NoDataAttribute)
    ensures EncodeEvent(ev, rs).Ok?
  {
  }
}

=== FILE: messages.dfy ===
/** The three message categories inside a track: channel and system-common
    messages of fixed length, system-exclusive (sysex) messages and meta
    events, and how each is read from a track payload. */
module Messages {
  import opened Results
  import opened VarInt

  const MetaStatus: byte := 0xFF
  const SysexStart: byte := 0xF0
  const SysexEnd: byte := 0xF7

  /** Total lengths, status byte included, of the system-common and real-time
      messages the codec knows (MIDI 1.0 Detailed Specification). */
  const SystemLengths: map<byte, nat> :=
    map[0xF1 := 2, 0xF2 := 3, 0xF3 := 2,
        0xF6 := 1, 0xF8 := 1, 0xFA := 1, 0xFB := 1, 0xFC := 1, 0xFE := 1, 0xFF := 1]

  /** `get_msg_len`: the total length of the message a status byte opens.
      Channel messages carry two data bytes except program change (0xCn) and
      channel pressure (0xDn), which carry one; every status outside the
      table, the sysex bytes 0xF0 and 0xF7 among them, has no length. */
  function GetMsgLen(status: byte): (r: Option<nat>)
    ensures r.Some? ==> 1 <= r.value <= 3
    ensures 0x80 <= status < 0xF0 ==> r == Some(if status / 0x10 == 0xC || status / 0x10 == 0xD then 2 else 3)
    ensures status < 0x80 ==> r.None?
    ensures status == 0xF2 ==> r == Some(3)
    ensures status == 0xF1 || status == 0xF3 ==> r == Some(2)
    ensures r == Some(1) <==> status in {0xF6, 0xF8, 0xFA, 0xFB, 0xFC, 0xFE, 0xFF}
    ensures r.None? <==> status < 0x80 || status in {0xF0, 0xF4, 0xF5, 0xF7, 0xF9, 0xFD}
  {
    if 0x80 <= status <= 0xBF || 0xE0 <= status <= 0xEF then Some(3)
    else if 0xC0 <= status <= 0xDF then Some(2)
    else if status in SystemLengths then Some(SystemLengths[status])
    else None
  }

  /** `is_meta`: a message that starts with 0xFF and has a type byte after it. */
  predicate IsMeta(msg: seq<byte>)
  {
    |msg| > 1 && msg[0] == MetaStatus
  }

  /** `infile.read(n)` within a track payload that ends at `end`. A read that
      would cross `end` fails; a negative `n` reads to the end of the stream,
      which stays inside the payload only when the payload ends the stream. */
  function ReadBytes(s: seq<byte>, pos: nat, end: nat, n: int): (r: Result<(seq<byte>, nat)>)
    requires pos <= end <= |s|
    ensures r.Ok? ==> r.value.1 <= end && r.value.1 == pos + |r.value.0| && r.value.0 == s[pos..r.value.1]
    ensures n >= 0 ==> (r.Ok? <==> pos + n <= end) && (r.Ok? ==> |r.value.0| == n)
    ensures n < 0 ==> (r.Ok? <==> end == |s|) && (r.Ok? ==> r.value.1 == |s|)
    ensures r.Err? ==> r.error == Truncated
  {
    if n < 0 then
      if end == |s| then Ok((s[pos..], |s|)) else Err(Truncated)
    else if pos + n <= end then Ok((s[pos..pos + n], pos + n))
    else Err(Truncated)
  }

  /** `read_message`: a fixed-length message whose status byte was already
      consumed. `peek` holds the first data byte when running status supplied
      the status; the remaining data bytes are read from `pos`. */
  function ReadMessage(s: seq<byte>, pos: nat, end: nat, status: byte, peek: seq<byte>): (r: Result<(seq<byte>, nat)>)
    requires pos <= end <= |s|
    requires |peek| <= 1
    ensures r.Ok? ==> pos <= r.value.1 <= end && |r.value.0| >= 1 && r.value.0[0] == status
    ensures r.Err? ==> r.error == UnknownStatus || r.error == Truncated
  {
    match GetMsgLen(status)
    case None => Err(UnknownStatus)
    case Some(msgLen) =>
      // Subtract one for the status byte; a negative size reads to the end of the stream.
      var data :- ReadBytes(s, pos, end, msgLen - 1 - |peek|);
      Ok(([status] + peek + data.0, data.1))
  }

  /** What `read_message` returns: an unknown status fails; otherwise the
      message is the status byte, the peeked byte and the bytes read, and a
      known length that the peeked byte does not already exhaust is met
      exactly, failing only when the payload ends too early. */
  lemma ReadMessageSpec(s: seq<byte>, pos: nat, end: nat, status: byte, peek: seq<byte>)
    requires pos <= end <= |s| && |peek| <= 1
    ensures var r := ReadMessage(s, pos, end, status, peek);
      && (GetMsgLen(status).None? ==> r == Err(UnknownStatus))
      && (r.Ok? ==> |r.value.0| >= 1 + |peek| && r.value.0[1..1 + |peek|] == peek && r.value.0[1 + |peek|..] == s[pos..r.value.1])
      && (GetMsgLen(status).Some? && GetMsgLen(status).value > |peek| ==>
            (r.Ok? <==> pos + GetMsgLen(status).value - 1 - |peek| <= end) &&
            (r.Ok? ==> |r.value.0| == GetMsgLen(status).value))
  {
    var r := ReadMessage(s, pos, end, status, peek);
    if r.Ok? {
      var msg := r.value.0;
      var data := msg[1 + |peek|..];
      assert msg == [status] + peek + data;
      assert msg[1..1 + |peek|] == peek;
    }
  }

  /** A one-byte status reached through running status: the peeked data
      byte already exceeds the message, the size asked for is -1, and the
      read takes everything to the end of the stream. It succeeds only when
      the track payload ends the stream, and then swallows it all. */
  lemma ReadMessageToEnd(s: seq<byte>, pos: nat, end: nat, status: byte, peek: seq<byte>)
    requires pos <= end <= |s| && |peek| == 1
    requires GetMsgLen(status) == Some(1)
    ensures ReadMessage(s, pos, end, status, peek).Ok? <==> end == |s|
    ensures end == |s| ==> ReadMessage(s, pos, end, status, peek) == Ok(([status] + peek + s[pos..], |s|))
  {
  }

  /** Strips every leading copy of `x` (`bytes.lstrip`). */
  function StripLeading(d: seq<byte>, x: byte): (r: seq<byte>)
    ensures |r| <= |d| && r == d[|d| - |r|..]
    ensures |r| > 0 ==> r[0] != x
    ensures forall k :: 0 <= k < |d| - |r| ==> d[k] == x
  {
    if |d| > 0 && d[0] == x then StripLeading(d[1..], x) else d
  }

  /** Strips every trailing copy of `x` (`bytes.rstrip`). */
  function StripTrailing(d: seq<byte>, x: byte): (r: seq<byte>)
    ensures |r| <= |d| && r == d[..|r|]
    ensures |r| > 0 ==> r[|r| - 1] != x
    ensures forall k :: |r| <= k < |d| ==> d[k] == x
  {
    if |d| > 0 && d[|d| - 1] == x then StripTrailing(d[..|d| - 1], x) else d
  }

  /** The interior of a sysex message after `read_sysex` drops every leading
      0xF0 and then every trailing 0xF7 of the payload it read. */
  function SysexInterior(payload: seq<byte>): seq<byte>
  {
    StripTrailing(StripLeading(payload, SysexStart), SysexEnd)
  }

  /** An interior that stripping leaves alone. */
  predicate CleanInterior(d: seq<byte>)
  {
    |d| == 0 || (d[0] != SysexStart && d[|d| - 1] != SysexEnd)
  }

  /** Stripping leaves an interior that starts with no 0xF0 and ends with no
      0xF7. */
  lemma SysexInteriorClean(payload: seq<byte>)
    ensures CleanInterior(SysexInterior(payload))
  {
    var l := StripLeading(payload, SysexStart);
    var r := StripTrailing(l, SysexEnd);
    assert |r| > 0 ==> r[0] == l[0];
  }

  /** The interior is the slice of the payload that starts after the `i`
      leading 0xF0 bytes, and only 0xF7 bytes follow it. */
  lemma SysexInteriorSlice(payload: seq<byte>, i: nat)
    requires i == |payload| - |StripLeading(payload, SysexStart)|
    ensures i + |SysexInterior(payload)| <= |payload| && SysexInterior(payload) == payload[i..i + |SysexInterior(payload)|]
    ensures forall k :: 0 <= k < i ==> payload[k] == SysexStart
    ensures forall k :: i + |SysexInterior(payload)| <= k < |payload| ==> payload[k] == SysexEnd
  {
    var l := StripLeading(payload, SysexStart);
    var r := StripTrailing(l, SysexEnd);
    PrefixOfSuffix(payload, i, l, r);
  }

  /** A prefix `r` of the suffix `l` of `d` that starts at `i` is a slice of
      `d`, and whatever `l` holds after `r` is what `d` holds after it. */
  lemma PrefixOfSuffix(d: seq<byte>, i: nat, l: seq<byte>, r: seq<byte>)
    requires i <= |d| && l == d[i..] && |r| <= |l| && r == l[..|r|]
    ensures i + |r| <= |d| && r == d[i..i + |r|]
    ensures forall k :: i + |r| <= k < |d| ==> d[k] == l[k - i]
  {
  }

  /** A clean payload followed by one 0xF7 comes back out of the stripping
      unchanged. */
  lemma SysexInteriorOfClean(d: seq<byte>)
    requires CleanInterior(d)
    ensures SysexInterior(d + [SysexEnd]) == d
  {
    var p := d + [SysexEnd];
    assert StripLeading(p, SysexStart) == p;
    assert p[..|p| - 1] == d;
  }

  /** The sysex message `read_sysex` rebuilds from a payload: 0xF0, the
      stripped payload, 0xF7. */
  function SysexMessage(payload: seq<byte>): (msg: seq<byte>)
    ensures |msg| >= 2 && msg[0] == SysexStart && msg[|msg| - 1] == SysexEnd
    ensures msg[1..|msg| - 1] == SysexInterior(payload) && CleanInterior(msg[1..|msg| - 1])
  {
    var msg := [SysexStart] + SysexInterior(payload) + [SysexEnd];
    assert msg[1..|msg| - 1] == SysexInterior(payload);
    SysexInteriorClean(payload);
    msg
  }

  /** `read_sysex`: a length, then that many payload bytes, returned as a
      sysex message opened by 0xF0, whichever of 0xF0 and 0xF7 opened the
      event. */
  function ReadSysex(s: seq<byte>, pos: nat, end: nat): (r: Result<(seq<byte>, nat)>)
    requires pos <= end <= |s|
    ensures r.Ok? ==> pos < r.value.1 <= end
    ensures r.Err? ==> r.error == Truncated
    ensures r.Ok? ==> var msg := r.value.0;
      |msg| >= 2 && msg[0] == SysexStart && msg[|msg| - 1] == SysexEnd && CleanInterior(msg[1..|msg| - 1])
  {
    var length :- ReadVarInt(s, pos, end);
    var data :- ReadBytes(s, length.1, end, length.0);
    Ok((SysexMessage(data.0), data.1))
  }

  /** `read_meta_message`: a type byte, a length and that many payload bytes,
      returned as 0xFF, the type byte and the payload. */
  function ReadMetaMessage(s: seq<byte>, pos: nat, end: nat): (r: Result<(seq<byte>, nat)>)
    requires pos <= end <= |s|
    ensures r.Ok? ==> IsMeta(r.value.0) && pos < r.value.1 <= end
    ensures r.Err? ==> r.error == Truncated
  {
    var metaType :- ReadBytes(s, pos, end, 1);
    var length :- ReadVarInt(s, metaType.1, end);
    var data :- ReadBytes(s, length.1, end, length.0);
    Ok(([MetaStatus] + metaType.0 + data.0, data.1))
  }

  /** What `read_meta_message` returns: 0xFF, the type byte at `pos`, and the
      payload whose length the quantity after the type byte declares. */
  lemma ReadMetaMessageSpec(s: seq<byte>, pos: nat, end: nat)
    requires pos <= end <= |s|
    ensures var r := ReadMetaMessage(s, pos, end);
      r.Ok? ==> (pos < end && r.value.0[1] == s[pos] && ReadVarInt(s, pos + 1, end).Ok? &&
        var (n, p) := ReadVarInt(s, pos + 1, end).value;
        r.value.1 == p + n && |r.value.0| == 2 + n && r.value.0[2..] == s[p..p + n])
  {
  }
}

=== FILE: midifile.dfy ===
/** A whole Standard MIDI File: the "MThd" header chunk followed by as many
    "MTrk" chunks as the header announces, read from and written to a byte
    stream. */
module MidiFile {
  import opened Results
  import opened Fields
  import opened Sequences
  import opened Chunks
  import opened Tracks
  import opened RoundTrip

  /** `DEFAULT_RESOLUTION`: ticks per quarter note when the caller names none. */
  const DefaultResolution: int := 240

  /** The format `write_rawmidifile` writes when the caller names none. */
  const DefaultFormat: int := 1

  /** The dictionary `read_rawmidifile` returns. */
  datatype RawMidiFile = RawMidiFile(format: int, resolution: int, tracks: seq<Track>)

  /** `count` track chunks read one after the other from `pos`. */
  function ReadTracks(s: seq<byte>, pos: nat, count: nat): (r: Result<(seq<Track>, nat)>)
    requires pos <= |s|
    ensures r.Ok? ==> |r.value.0| == count && pos <= r.value.1 <= |s|
    ensures count == 0 ==> r == Ok(([], pos))
    decreases count
  {
    if count == 0 then Ok(([], pos))
    else
      var first :- ReadTrack(s, pos);
      var rest :- ReadTracks(s, first.1, count - 1);
      Ok(([first.0] + rest.0, rest.1))
  }

  /** The indices `range(n)` yields: 0 up to n - 1 in order, and none when
      n is not positive. */
  function Indices(n: int): (r: seq<int>)
    ensures forall i :: 0 <= i < |r| ==> r[i] == i
    ensures n <= 0 ==> r == []
    ensures n > 0 ==> |r| == n
    decreases if n < 0 then 0 else n
  {
    if n <= 0 then [] else Indices(n - 1) + [n - 1]
  }

  /** The number of tracks `read_rawmidifile` reads: one per index of
      `range(num_tracks)`, so none for a negative count. */
  function TrackCount(numTracks: int): (r: nat)
    ensures r == |Indices(numTracks)|
  {
    if numTracks < 0 then 0 else numTracks
  }

  /** `read_rawmidifile` on a stream: the header at the start, then the
      tracks it announces. Bytes after the last track are not looked at. */
  function ReadRawMidiFile(s: seq<byte>): (r: Result<RawMidiFile>)
    ensures r.Ok? ==> ReadFileHeader(s, 0).Ok?
    ensures r.Ok? ==> var h := ReadFileHeader(s, 0).value.0;
      && r.value.format == h.format && r.value.resolution == h.resolution
      && |r.value.tracks| == TrackCount(h.numTracks)
    ensures ReadFileHeader(s, 0).Err? ==> r == Err(ReadFileHeader(s, 0).error)
  {
    var header :- ReadFileHeader(s, 0);
    var h := header.0;
    var tracks :- ReadTracks(s, header.1, TrackCount(h.numTracks));
    Ok(RawMidiFile(h.format, h.resolution, tracks.0))
  }

  /** The track chunks of `write_rawmidifile`, in order. */
  function WriteTracks(tracks: seq<Track>): (r: Result<seq<byte>>)
    ensures r.Ok? <==> forall i :: 0 <= i < |tracks| ==> WriteTrack(tracks[i]).Ok?
    ensures r.Ok? ==> |r.value| >= 8 * |tracks|
  {
    if |tracks| == 0 then Ok([])
    else
      var first :- WriteTrack(tracks[0]);
      var rest :- WriteTracks(tracks[1..]);
      Ok(first + rest)
  }

  /** `write_rawmidifile` on a stream: the header chunk with the format,
      the number of tracks and the resolution, then every track. */
  function WriteRawMidiFile(tracks: seq<Track> := [], format: int := DefaultFormat, resolution: int := DefaultResolution): (r: Result<seq<byte>>)
    ensures r.Ok? <==>
      && -0x8000 <= format < 0x8000 && |tracks| < 0x8000 && -0x8000 <= resolution < 0x8000
      && forall i :: 0 <= i < |tracks| ==> WriteTrack(tracks[i]).Ok?
    ensures !(-0x8000 <= format < 0x8000 && |tracks| < 0x8000 && -0x8000 <= resolution < 0x8000) ==> r == Err(OutOfRange)
    ensures r.Ok? ==> |r.value| >= 8 + HeaderFieldsLength + 8 * |tracks| && r.value[..4] == HeaderTag
  {
    var header :- WriteFileHeader(FileHeader(format, |tracks|, resolution));
    var body :- WriteTracks(tracks);
    Ok(header + body)
  }

  /** A track whose every message comes back unchanged. */
  predicate EncodableTrack(t: Track)
  {
    forall i :: 0 <= i < |t| ==> Encodable(t[i].msg)
  }

  /** `WriteTracks` unfolded once. */
  lemma WriteTracksStep(tracks: seq<Track>)
    requires |tracks| > 0 && WriteTracks(tracks).Ok?
    ensures WriteTrack(tracks[0]).Ok? && WriteTracks(tracks[1..]).Ok?
    ensures WriteTracks(tracks).value == WriteTrack(tracks[0]).value + WriteTracks(tracks[1..]).value
  {
  }

  /** `ReadTracks` unfolded once: the first track, then the other `k`. */
  lemma ReadTracksStep(s: seq<byte>, pos: nat, tracks: seq<Track>, k: nat, next: nat, last: nat)
    requires pos <= |s| && |tracks| == k + 1
    requires ReadTrack(s, pos) == Ok((tracks[0], next))
    requires ReadTracks(s, next, k) == Ok((tracks[1..], last))
    ensures ReadTracks(s, pos, |tracks|) == Ok((tracks, last))
  {
    assert tracks == [tracks[0]] + tracks[1..];
  }

  /** Where the first track chunk ends and the rest begin in written
      tracks. */
  lemma TracksLayout(s: seq<byte>, pos: nat, tracks: seq<Track>, first: seq<byte>, rest: seq<byte>, mid: nat, next: nat)
    requires |tracks| > 0 && WriteTracks(tracks).Ok?
    requires next == pos + |WriteTracks(tracks).value| <= |s| && s[pos..next] == WriteTracks(tracks).value
    requires WriteTrack(tracks[0]).Ok? && first == WriteTrack(tracks[0]).value
    requires WriteTracks(tracks[1..]).Ok? && rest == WriteTracks(tracks[1..]).value
    requires mid == pos + |first|
    ensures mid + |rest| == next && s[pos..mid] == first && s[mid..next] == rest
  {
    WriteTracksStep(tracks);
    SplitAt(s, pos, first, rest);
  }

  /** Round trip for the track chunks: reading back as many tracks as were
      written gives them back and stops right after the last one. */
  lemma {:induction false} ReadWrittenTracks(s: seq<byte>, pos: nat, tracks: seq<Track>, next: nat)
    requires forall i :: 0 <= i < |tracks| ==> EncodableTrack(tracks[i])
    requires WriteTracks(tracks).Ok?
    requires next == pos + |WriteTracks(tracks).value| <= |s| && s[pos..next] == WriteTracks(tracks).value
    ensures ReadTracks(s, pos, |tracks|) == Ok((tracks, next))
    decreases |tracks|
  {
    if |tracks| > 0 {
      WriteTracksStep(tracks);
      var t := tracks[0];
      var tail := tracks[1..];
      var first := WriteTrack(t).value;
      var rest := WriteTracks(tail).value;
      var mid: nat := pos + |first|;
      TracksLayout(s, pos, tracks, first, rest, mid, next);
      assert EncodableTrack(t);
      ReadWrittenTrack(s, pos, t, mid);
      assert forall i :: 0 <= i < |tail| ==> EncodableTrack(tail[i]) by {
        forall i | 0 <= i < |tail| ensures EncodableTrack(tail[i]) {
          assert tail[i] == tracks[i + 1];
        }
      }
      ReadWrittenTracks(s, mid, tail, next);
      var k: nat := |tail|;
      ReadTracksStep(s, pos, tracks, k, mid, next);
    }
  }

  /** The header chunk read back from the start of a stream that begins with
      it gives back the fields it was written from. */
  lemma ReadWrittenFileHeader(s: seq<byte>, h: FileHeader, next: nat)
    requires WriteFileHeader(h).Ok?
    requires next == |WriteFileHeader(h).value| <= |s| && s[..next] == WriteFileHeader(h).value
    ensures ReadFileHeader(s, 0) == Ok((h, next))
  {
    var f := PackInt16(h.format).value;
    var n := PackInt16(h.numTracks).value;
    var res := PackInt16(h.resolution).value;
    var fields := f + n + res;
    assert WriteFileHeader(h).value == WriteChunk(HeaderTag, fields).value;
    assert fields[..2] == f && fields[2..4] == n && fields[4..] == res;
    assert s[0..next] == s[..next];
    ReadWrittenHeader(s, 0, fields);
  }

  /** Round trip for a whole file: reading what `write_rawmidifile` wrote
      gives back the format, the resolution and every track, provided every
      message is one that survives the codec unchanged. */
  lemma ReadWrittenRawMidiFile(tracks: seq<Track>, format: int, resolution: int)
    requires forall i :: 0 <= i < |tracks| ==> EncodableTrack(tracks[i])
    requires WriteRawMidiFile(tracks, format, resolution).Ok?
    ensures ReadRawMidiFile(WriteRawMidiFile(tracks, format, resolution).value) == Ok(RawMidiFile(format, resolution, tracks))
  {
    var s := WriteRawMidiFile(tracks, format, resolution).value;
    var h := FileHeader(format, |tracks|, resolution);
    var header := WriteFileHeader(h).value;
    var body := WriteTracks(tracks).value;
    var p: nat := |header|;
    var end: nat := |s|;
    assert s == header + body;
    assert s[..p] == header;
    ReadWrittenFileHeader(s, h, p);
    assert s[p..end] == body;
    ReadWrittenTracks(s, p, tracks, end);
  }
}

=== FILE: results.dfy ===
/** Octets, optional values and the failure-carrying result type shared by the
    Standard MIDI File codec. */
module Results {

  /** One octet of a MIDI byte stream. */
  type byte = b: int | 0 <= b < 256

  /** A value that may be absent; the running-status byte is an `Option<byte>`. */
  datatype Option<+T> = None | Some(value: T)

  /** The ways a read or a write fails. Each stands for one family of
      exceptions the codec raises; the exact exception class is not kept. */
  datatype Error =
    | Truncated        // the stream or the track payload ends inside a field
    | NotMidiFile      // the first chunk is not tagged "MThd"
    | NoTrackHeader    // a track chunk is not tagged "MTrk"
    | NoRunningStatus  // a data byte stands where a status byte is needed and none was seen yet
    | UnknownStatus    // the status byte has no entry in the message length table
    | EmptyMessage     // an event to be written carries no bytes at all
    | OutOfRange       // a header field or a chunk length does not fit its fixed-width field
    | NoDataAttribute  // the sysex writer asks a byte string for a `data` attribute it lacks

  /** Either a value or the error that stopped the computation; usable with `:-`. */
  datatype Result<+T> = Ok(value: T) | Err(error: Error) {

    predicate IsFailure() {
      Err?
    }

    function PropagateFailure<U>(): Result<U>
      requires Err?
    {
      Err(error)
    }

    function Extract(): T
      requires Ok?
    {
      value
    }
  }
}

=== FILE: roundtrip.dfy ===
/** Decoding what the encoder wrote: message by message, event by event and
    for a whole track chunk.

    The headline lemmas are ReadEncodedEvent, ReadEncodedEvents and
    ReadWrittenTrack. The smaller lemmas they are built from each unfold one
    reader or writer step. A step lemma takes the stream positions it talks
    about (`p` after the delta time, `q` after the status byte, `next` after
    the event) as parameters tied together by `requires`. It does not
    compute them, so each reader call is stated once, at a named position. */
module RoundTrip {
  import opened Results
  import opened Sequences
  import opened VarInt
  import opened Messages
  import opened Chunks
  import opened Tracks

  /** A meta event as the writer lays it out after its 0xFF: the type byte,
      the payload length and the payload. */
  function MetaTail(msg: seq<byte>): seq<byte>
    requires IsMeta(msg)
  {
    msg[1..2] + EncodeVarInt(|msg| - 2) + msg[2..]
  }

  /** A sysex message as the writer lays it out after its 0xF0: the length of
      the rest and the rest. */
  function SysexTail(msg: seq<byte>): seq<byte>
    requires |msg| >= 1
  {
    EncodeVarInt(|msg| - 1) + msg[1..]
  }

  /** A sysex message the reader gives back unchanged: framed by 0xF0 and
      0xF7 around an interior that stripping leaves alone. */
  predicate FramedSysex(msg: seq<byte>)
  {
    |msg| >= 2 && msg[0] == SysexStart && msg[|msg| - 1] == SysexEnd && CleanInterior(msg[1..|msg| - 1])
  }

  /** A channel or system-common message: the table gives its length and its
      data bytes are below 0x80. */
  predicate ChannelMessage(msg: seq<byte>)
  {
    && |msg| >= 1 && msg[0] != MetaStatus && GetMsgLen(msg[0]) == Some(|msg|)
    && forall i :: 1 <= i < |msg| ==> msg[i] < 0x80
  }

  /** Messages that come back unchanged from a write and a read: meta
      events, framed sysex messages, and channel or system-common messages. */
  predicate Encodable(msg: seq<byte>)
  {
    IsMeta(msg) || FramedSysex(msg) || ChannelMessage(msg)
  }

  /** The three kinds of message never overlap, so `is_meta` and the test
      for 0xF0 send each one down exactly one branch of the writer. */
  lemma EncodableKindsDisjoint(msg: seq<byte>)
    ensures IsMeta(msg) ==> !FramedSysex(msg) && !ChannelMessage(msg)
    ensures FramedSysex(msg) ==> !IsMeta(msg) && !ChannelMessage(msg)
    ensures ChannelMessage(msg) ==> !IsMeta(msg) && msg[0] != SysexStart
  {
  }

  /** The writer's running status never names a status the reader does not
      also hold: whenever the writer leaves a status byte out, the reader
      supplies the same one. */
  predicate InStep(rs: Option<byte>, last: Option<StatusByte>)
  {
    rs.Some? ==> 0x80 <= rs.value < 0xF0 && last.Some? && last.value == rs.value
  }

  /** `read_meta_message` unfolded: the type byte, then the payload whose
      length the quantity after it declares. */
  lemma ReadMetaParts(s: seq<byte>, pos: nat, end: nat, r: nat, n: nat, q: nat, next: nat)
    requires pos < end <= |s| && r == pos + 1
    requires ReadVarInt(s, r, end) == Ok((n, q))
    requires next == q + n <= end
    ensures ReadMetaMessage(s, pos, end) == Ok(([MetaStatus, s[pos]] + s[q..next], next))
  {
    assert ReadBytes(s, pos, end, 1) == Ok((s[pos..r], r));
    assert s[pos..r] == [s[pos]];
    assert ReadBytes(s, q, end, n) == Ok((s[q..next], next));
    assert [MetaStatus] + [s[pos]] + s[q..next] == [MetaStatus, s[pos]] + s[q..next];
  }

  /** The pieces of a written meta event after its 0xFF: the type byte, a
      length field that reads back as the payload length, and the payload. */
  lemma MetaTailLayout(s: seq<byte>, pos: nat, end: nat, msg: seq<byte>, r: nat, n: nat, q: nat, next: nat)
    requires IsMeta(msg) && r == pos + 1 && n == |msg| - 2 && q == r + |EncodeVarInt(n)|
    requires next == pos + |MetaTail(msg)| <= end <= |s| && s[pos..next] == MetaTail(msg)
    ensures pos < end && s[pos] == msg[1]
    ensures ReadVarInt(s, r, end) == Ok((n, q))
    ensures next == q + n && s[q..next] == msg[2..]
  {
    var e := EncodeVarInt(n);
    assert MetaTail(msg) == msg[1..2] + (e + msg[2..]);
    SplitAt(s, pos, msg[1..2], e + msg[2..]);
    SplitAt(s, r, e, msg[2..]);
    assert s[pos] == s[pos..r][0];
    ReadEncodedVarInt(s, r, end, n, q);
  }

  /** A meta event whose type byte, length field and payload read back is
      read back whole. */
  lemma ReadMetaOf(s: seq<byte>, pos: nat, end: nat, msg: seq<byte>, r: nat, n: nat, q: nat, next: nat)
    requires IsMeta(msg) && pos < end <= |s| && r == pos + 1 && s[pos] == msg[1]
    requires ReadVarInt(s, r, end) == Ok((n, q))
    requires next == q + n <= end && s[q..next] == msg[2..]
    ensures ReadMetaMessage(s, pos, end) == Ok((msg, next))
  {
    ReadMetaParts(s, pos, end, r, n, q, next);
    assert [MetaStatus, msg[1]] + msg[2..] == msg;
  }

  /** Round trip for a meta event after its 0xFF. */
  lemma ReadEncodedMeta(s: seq<byte>, pos: nat, end: nat, msg: seq<byte>, next: nat)
    requires IsMeta(msg)
    requires next == pos + |MetaTail(msg)| <= end <= |s| && s[pos..next] == MetaTail(msg)
    ensures ReadMetaMessage(s, pos, end) == Ok((msg, next))
  {
    var n: nat := |msg| - 2;
    var r: nat := pos + 1;
    var q: nat := r + |EncodeVarInt(n)|;
    MetaTailLayout(s, pos, end, msg, r, n, q, next);
    ReadMetaOf(s, pos, end, msg, r, n, q, next);
  }

  /** `read_sysex` unfolded: the payload whose length the leading quantity
      declares, rebuilt as a sysex message. */
  lemma ReadSysexParts(s: seq<byte>, pos: nat, end: nat, n: nat, q: nat, next: nat)
    requires pos <= end <= |s|
    requires ReadVarInt(s, pos, end) == Ok((n, q))
    requires next == q + n <= end
    ensures ReadSysex(s, pos, end) == Ok((SysexMessage(s[q..next]), next))
  {
    assert ReadBytes(s, q, end, n) == Ok((s[q..next], next));
  }

  /** A message of two or more bytes is its first byte, its interior and its
      last byte. */
  lemma Unframe(msg: seq<byte>)
    requires |msg| >= 2
    ensures msg == [msg[0]] + msg[1..|msg| - 1] + [msg[|msg| - 1]]
  {
    assert msg == msg[..1] + msg[1..|msg| - 1] + msg[|msg| - 1..];
  }

  /** Rebuilding a framed sysex message from what follows its 0xF0 gives the
      message back. */
  lemma SysexMessageOfTail(payload: seq<byte>, msg: seq<byte>)
    requires FramedSysex(msg) && payload == msg[1..]
    ensures SysexMessage(payload) == msg
  {
    var interior := msg[1..|msg| - 1];
    assert payload == interior + [SysexEnd];
    SysexInteriorOfClean(interior);
    assert SysexInterior(payload) == interior;
    Unframe(msg);
  }

  /** A framed sysex message whose length field reads back and whose bytes
      after the field are the message without its 0xF0 reads back whole. */
  lemma ReadSysexOf(s: seq<byte>, pos: nat, end: nat, n: nat, q: nat, next: nat, msg: seq<byte>)
    requires FramedSysex(msg)
    requires pos <= end <= |s| && ReadVarInt(s, pos, end) == Ok((n, q))
    requires next == q + n <= end && s[q..next] == msg[1..]
    ensures ReadSysex(s, pos, end) == Ok((msg, next))
  {
    SysexMessageOfTail(s[q..next], msg);
    ReadSysexParts(s, pos, end, n, q, next);
  }

  /** Round trip for a sysex message after its 0xF0. */
  lemma ReadEncodedSysex(s: seq<byte>, pos: nat, end: nat, msg: seq<byte>, next: nat)
    requires FramedSysex(msg)
    requires next == pos + |SysexTail(msg)| <= end <= |s| && s[pos..next] == SysexTail(msg)
    ensures ReadSysex(s, pos, end) == Ok((msg, next))
  {
    var n: nat := |msg| - 1;
    var e := EncodeVarInt(n);
    var q: nat := pos + |e|;
    SplitAt(s, pos, e, msg[1..]);
    ReadEncodedVarInt(s, pos, end, n, q);
    ReadSysexOf(s, pos, end, n, q, next, msg);
  }

  /** Round trip for a channel or system-common message whose first `k - 1`
      data bytes were already taken (one under running status, none
      otherwise): it reads back from the rest of its bytes. */
  lemma ReadEncodedChannel(s: seq<byte>, pos: nat, end: nat, msg: seq<byte>, k: nat, next: nat)
    requires ChannelMessage(msg) && 1 <= k <= 2 && k <= |msg|
    requires next == pos + |msg| - k <= end <= |s| && s[pos..next] == msg[k..]
    ensures ReadMessage(s, pos, end, msg[0], msg[1..k]) == Ok((msg, next))
  {
    assert [msg[0]] + msg[1..k] + msg[k..] == msg;
  }

  /** The bytes the encoder writes for a meta event. */
  lemma EncodeMetaShape(ev: Event, rs: Option<byte>)
    requires IsMeta(ev.msg)
    ensures EncodeEvent(ev, rs) == Ok((EncodeVarInt(ev.delta) + [MetaStatus] + MetaTail(ev.msg), None))
  {
    var msg := ev.msg;
    var d := EncodeVarInt(ev.delta);
    var e := EncodeVarInt(|msg| - 2);
    assert msg[..2] == [MetaStatus] + msg[1..2];
    Regroup(d, [MetaStatus], msg[1..2], e, msg[2..]);
  }

  /** The bytes the encoder writes for any message opened by 0xF0 that is
      not a meta event, framed or not. */
  lemma EncodeSysexShape(ev: Event, rs: Option<byte>)
    requires |ev.msg| >= 1 && !IsMeta(ev.msg) && ev.msg[0] == SysexStart
    ensures EncodeEvent(ev, rs) == Ok((EncodeVarInt(ev.delta) + [SysexStart] + SysexTail(ev.msg), None))
  {
    var msg := ev.msg;
    var d := EncodeVarInt(ev.delta);
    var e := EncodeVarInt(|msg| - 1);
    assert d + [SysexStart] + e + msg[1..] == d + [SysexStart] + (e + msg[1..]);
  }

  /** The bytes the encoder writes for a channel message whose status byte
      repeats the running status: the status byte is left out. */
  lemma EncodeRunningShape(ev: Event, rs: Option<byte>)
    requires ChannelMessage(ev.msg) && rs == Some(ev.msg[0]) && ev.msg[0] < 0xF0
    ensures |ev.msg| >= 2
    ensures EncodeEvent(ev, rs) == Ok((EncodeVarInt(ev.delta) + [ev.msg[1]] + ev.msg[2..], rs))
  {
    var msg := ev.msg;
    var d := EncodeVarInt(ev.delta);
    assert msg[1..] == [msg[1]] + msg[2..];
    assert d + msg[1..] == d + [msg[1]] + msg[2..];
  }

  /** The bytes the encoder writes for a channel or system-common message
      whose status byte is not the running status: the whole message. */
  lemma EncodeStatusShape(ev: Event, rs: Option<byte>)
    requires ChannelMessage(ev.msg) && rs != Some(ev.msg[0])
    ensures EncodeEvent(ev, rs).Ok?
    ensures EncodeEvent(ev, rs).value.0 == EncodeVarInt(ev.delta) + [ev.msg[0]] + ev.msg[1..]
    ensures ev.msg[0] < 0xF0 ==> EncodeEvent(ev, rs).value.1 == Some(ev.msg[0])
    ensures ev.msg[0] >= 0xF0 ==> EncodeEvent(ev, rs).value.1 == None
  {
    var msg := ev.msg;
    var d := EncodeVarInt(ev.delta);
    assert msg == [msg[0]] + msg[1..];
    assert d + msg == d + [msg[0]] + msg[1..];
  }

  /** Where the pieces of an encoded event sit in the stream: the delta time
      reads back, and the byte after it and the bytes after that are those
      the encoder wrote. */
  lemma EventLayout(s: seq<byte>, pos: nat, end: nat, delta: nat, b: byte, x: seq<byte>, p: nat, q: nat, next: nat)
    requires p == pos + |EncodeVarInt(delta)| && q == p + 1 && next == q + |x| <= end <= |s|
    requires s[pos..next] == EncodeVarInt(delta) + [b] + x
    ensures ReadVarInt(s, pos, end) == Ok((delta, p))
    ensures p < end && s[p] == b && s[q..next] == x
  {
    var d := EncodeVarInt(delta);
    assert d + [b] + x == d + ([b] + x);
    SplitAt(s, pos, d, [b] + x);
    SplitAt(s, p, [b], x);
    assert s[p] == s[p..q][0];
    ReadEncodedVarInt(s, pos, end, delta, p);
  }

  /** `DecodeEvent` unfolded for an event that carries its status byte:
      the delta time ends at `p`, the status byte sits at `p`, and the
      message read from `q` ends at `next`. */
  lemma DecodeStatusEvent(s: seq<byte>, pos: nat, end: nat, last: Option<StatusByte>, delta: nat, p: nat, q: nat, body: seq<byte>, next: nat)
    requires pos <= end <= |s| && ReadVarInt(s, pos, end) == Ok((delta, p)) && p < end && q == p + 1 && s[p] >= 0x80
    requires ReadBody(s, q, end, s[p], []) == Ok((body, next))
    ensures s[p] != MetaStatus ==> DecodeEvent(s, pos, end, last) == Ok((Event(delta, body), next, Some(s[p] as StatusByte)))
    ensures s[p] == MetaStatus ==> DecodeEvent(s, pos, end, last) == Ok((Event(delta, body), next, last))
  {
  }

  /** `DecodeEvent` unfolded for an event whose status byte the running
      status supplies: the byte at `p` is the peeked first data byte. */
  lemma DecodeRunningEvent(s: seq<byte>, pos: nat, end: nat, status: StatusByte, delta: nat, p: nat, q: nat, body: seq<byte>, next: nat)
    requires pos <= end <= |s| && ReadVarInt(s, pos, end) == Ok((delta, p)) && p < end && q == p + 1 && s[p] < 0x80
    requires ReadBody(s, q, end, status, [s[p]]) == Ok((body, next))
    ensures DecodeEvent(s, pos, end, Some(status)) == Ok((Event(delta, body), next, Some(status)))
  {
  }

  /** A written meta event decodes to itself and leaves the reader's running
      status alone. */
  lemma DecodeMetaEvent(s: seq<byte>, pos: nat, end: nat, last: Option<StatusByte>, ev: Event, next: nat)
    requires IsMeta(ev.msg)
    requires next == pos + |EncodeVarInt(ev.delta)| + 1 + |MetaTail(ev.msg)| <= end <= |s|
    requires s[pos..next] == EncodeVarInt(ev.delta) + [MetaStatus] + MetaTail(ev.msg)
    ensures DecodeEvent(s, pos, end, last) == Ok((ev, next, last))
  {
    var p: nat := pos + |EncodeVarInt(ev.delta)|;
    var q: nat := p + 1;
    EventLayout(s, pos, end, ev.delta, MetaStatus, MetaTail(ev.msg), p, q, next);
    ReadEncodedMeta(s, q, end, ev.msg, next);
    DecodeStatusEvent(s, pos, end, last, ev.delta, p, q, ev.msg, next);
  }

  /** A written sysex event decodes to itself and makes 0xF0 the reader's
      running status. */
  lemma DecodeSysexEvent(s: seq<byte>, pos: nat, end: nat, last: Option<StatusByte>, ev: Event, next: nat)
    requires FramedSysex(ev.msg)
    requires next == pos + |EncodeVarInt(ev.delta)| + 1 + |SysexTail(ev.msg)| <= end <= |s|
    requires s[pos..next] == EncodeVarInt(ev.delta) + [SysexStart] + SysexTail(ev.msg)
    ensures DecodeEvent(s, pos, end, last) == Ok((ev, next, Some(SysexStart)))
  {
    var p: nat := pos + |EncodeVarInt(ev.delta)|;
    var q: nat := p + 1;
    EventLayout(s, pos, end, ev.delta, SysexStart, SysexTail(ev.msg), p, q, next);
    ReadEncodedSysex(s, q, end, ev.msg, next);
    DecodeStatusEvent(s, pos, end, last, ev.delta, p, q, ev.msg, next);
  }

  /** A channel or system-common message written with its status byte
      decodes to itself and makes that byte the reader's running status. */
  lemma DecodeChannelEvent(s: seq<byte>, pos: nat, end: nat, last: Option<StatusByte>, ev: Event, next: nat)
    requires ChannelMessage(ev.msg)
    requires next == pos + |EncodeVarInt(ev.delta)| + |ev.msg| <= end <= |s|
    requires s[pos..next] == EncodeVarInt(ev.delta) + [ev.msg[0]] + ev.msg[1..]
    ensures ev.msg[0] >= 0x80
    ensures DecodeEvent(s, pos, end, last) == Ok((ev, next, Some(ev.msg[0] as StatusByte)))
  {
    var p: nat := pos + |EncodeVarInt(ev.delta)|;
    var q: nat := p + 1;
    EventLayout(s, pos, end, ev.delta, ev.msg[0], ev.msg[1..], p, q, next);
    ReadEncodedChannel(s, q, end, ev.msg, 1, next);
    DecodeStatusEvent(s, pos, end, last, ev.delta, p, q, ev.msg, next);
  }

  /** A channel message written without its status byte decodes to itself
      when the reader's running status is that byte. */
  lemma DecodeRunningChannelEvent(s: seq<byte>, pos: nat, end: nat, status: StatusByte, ev: Event, next: nat)
    requires ChannelMessage(ev.msg) && |ev.msg| >= 2 && ev.msg[0] == status && status < 0xF0
    requires next == pos + |EncodeVarInt(ev.delta)| + |ev.msg| - 1 <= end <= |s|
    requires s[pos..next] == EncodeVarInt(ev.delta) + [ev.msg[1]] + ev.msg[2..]
    ensures DecodeEvent(s, pos, end, Some(status)) == Ok((ev, next, Some(status)))
  {
    var p: nat := pos + |EncodeVarInt(ev.delta)|;
    var q: nat := p + 1;
    EventLayout(s, pos, end, ev.delta, ev.msg[1], ev.msg[2..], p, q, next);
    ReadEncodedChannel(s, q, end, ev.msg, 2, next);
    assert ev.msg[1..2] == [s[p]];
    DecodeRunningEvent(s, pos, end, status, ev.delta, p, q, ev.msg, next);
  }

  /** Decoding one encoded event gives the event back, consumes exactly its
      bytes, and keeps the two running statuses in step. */
  lemma ReadEncodedEvent(s: seq<byte>, pos: nat, end: nat, ev: Event, rs: Option<byte>, last: Option<StatusByte>, next: nat)
    requires Encodable(ev.msg) && InStep(rs, last)
    requires next == pos + |EncodeEvent(ev, rs).value.0| <= end <= |s|
    requires s[pos..next] == EncodeEvent(ev, rs).value.0
    ensures DecodeEvent(s, pos, end, last).Ok?
    ensures DecodeEvent(s, pos, end, last).value.0 == ev
    ensures DecodeEvent(s, pos, end, last).value.1 == next
    ensures InStep(EncodeEvent(ev, rs).value.1, DecodeEvent(s, pos, end, last).value.2)
  {
    var msg := ev.msg;
    if IsMeta(msg) {
      EncodeMetaShape(ev, rs);
      DecodeMetaEvent(s, pos, end, last, ev, next);
    } else if FramedSysex(msg) {
      EncodeSysexShape(ev, rs);
      DecodeSysexEvent(s, pos, end, last, ev, next);
    } else if rs == Some(msg[0]) {
      EncodeRunningShape(ev, rs);
      DecodeRunningChannelEvent(s, pos, end, last.value, ev, next);
    } else {
      EncodeStatusShape(ev, rs);
      DecodeChannelEvent(s, pos, end, last, ev, next);
    }
  }

  /** `write_track`'s loop unfolded once: the first event's bytes, then the
      rest encoded from the running status the first leaves behind. */
  lemma EncodeEventsStep(t: Track, rs: Option<byte>)
    requires |t| > 0 && EncodeEvents(t, rs).Ok?
    ensures EncodeEvent(t[0], rs).Ok? && EncodeEvents(t[1..], EncodeEvent(t[0], rs).value.1).Ok?
    ensures EncodeEvents(t, rs).value == EncodeEvent(t[0], rs).value.0 + EncodeEvents(t[1..], EncodeEvent(t[0], rs).value.1).value
  {
  }

  /** Where the first event's bytes end and the rest's begin in a written
      run of events. */
  lemma EventsLayout(s: seq<byte>, pos: nat, end: nat, t: Track, rs: Option<byte>, rs': Option<byte>, first: seq<byte>, tail: Track, rest: seq<byte>, next: nat)
    requires |t| > 0 && EncodeEvents(t, rs).Ok?
    requires pos + |EncodeEvents(t, rs).value| == end <= |s| && s[pos..end] == EncodeEvents(t, rs).value
    requires tail == t[1..] && EncodeEvent(t[0], rs).Ok?
    requires rs' == EncodeEvent(t[0], rs).value.1 && first == EncodeEvent(t[0], rs).value.0
    requires EncodeEvents(tail, rs').Ok? && rest == EncodeEvents(tail, rs').value && next == pos + |first|
    ensures next <= end && s[pos..next] == first
    ensures next + |rest| == end && s[next..end] == rest
  {
    EncodeEventsStep(t, rs);
    SplitAt(s, pos, first, rest);
  }

  /** `read_track`'s loop unfolded once: an event, then the rest read from
      where it ended with the running status it left behind. */
  lemma ReadEventsStep(s: seq<byte>, pos: nat, end: nat, last: Option<StatusByte>, ev: Event, next: nat, last': Option<StatusByte>, rest: Track)
    requires pos < next <= end <= |s|
    requires DecodeEvent(s, pos, end, last) == Ok((ev, next, last'))
    requires ReadEvents(s, next, end, last') == Ok(rest)
    ensures ReadEvents(s, pos, end, last) == Ok([ev] + rest)
  {
  }

  /** Decoding an encoded run of events gives the events back, given that the
      reader's running status is in step with the writer's. */
  lemma {:induction false} ReadEncodedEvents(s: seq<byte>, pos: nat, end: nat, t: Track, rs: Option<byte>, last: Option<StatusByte>)
    requires forall i :: 0 <= i < |t| ==> Encodable(t[i].msg)
    requires InStep(rs, last)
    requires EncodeEvents(t, rs).Ok?
    requires pos + |EncodeEvents(t, rs).value| == end <= |s|
    requires s[pos..end] == EncodeEvents(t, rs).value
    ensures ReadEvents(s, pos, end, last) == Ok(t)
    decreases |t|
  {
    if |t| > 0 {
      EncodeEventsStep(t, rs);
      var rs' := EncodeEvent(t[0], rs).value.1;
      var first := EncodeEvent(t[0], rs).value.0;
      var tail := t[1..];
      var rest := EncodeEvents(tail, rs').value;
      var next: nat := pos + |first|;
      EventsLayout(s, pos, end, t, rs, rs', first, tail, rest, next);
      ReadEncodedEvent(s, pos, end, t[0], rs, last, next);
      var last' := DecodeEvent(s, pos, end, last).value.2;
      ReadEncodedEvents(s, next, end, tail, rs', last');
      ReadEventsStep(s, pos, end, last, t[0], next, last', tail);
      assert t == [t[0]] + tail;
    }
  }

  /** `read_track` unfolded: an "MTrk" header whose size stays inside the
      stream, and the events of the payload it delimits. */
  lemma ReadTrackParts(s: seq<byte>, pos: nat, size: nat, start: nat, end: nat)
    requires start == pos + 8 && end == start + size <= |s|
    requires ReadChunkHeader(s, pos) == Ok((ChunkHeader(TrackTag, size), start))
    ensures ReadTrack(s, pos) == (if ReadEvents(s, start, end, None).Ok? then Ok((ReadEvents(s, start, end, None).value, end)) else Err(ReadEvents(s, start, end, None).error))
  {
  }

  /** Round trip for a track chunk: reading what `write_track` wrote, at any
      position of a stream, gives the track back and stops right after the
      chunk. */
  lemma ReadWrittenTrack(s: seq<byte>, pos: nat, t: Track, next: nat)
    requires forall i :: 0 <= i < |t| ==> Encodable(t[i].msg)
    requires WriteTrack(t).Ok?
    requires next == pos + |WriteTrack(t).value| <= |s| && s[pos..next] == WriteTrack(t).value
    ensures ReadTrack(s, pos) == Ok((t, next))
  {
    var data := EncodeEvents(t, None).value;
    var w := WriteChunk(TrackTag, data).value;
    assert WriteTrack(t).value == w;
    var start: nat := pos + 8;
    assert next == start + |data|;
    ReadWrittenChunk(s, pos, TrackTag, data);
    ReadEncodedEvents(s, start, next, t, None, None);
    ReadTrackParts(s, pos, |data|, start, next);
  }
}

=== FILE: sequences.dfy ===
/** Facts about slicing and concatenating byte runs: a stream that holds a
    run at some offset holds each piece of it at the matching offset. */
module Sequences {
  import opened Results

  /** Slicing a stream that holds `x` at offset `a` yields the matching slice of `x`. */
  lemma SliceOfSlice(s: seq<byte>, a: nat, x: seq<byte>, i: nat, j: nat)
    requires a + |x| <= |s| && s[a..a + |x|] == x
    requires i <= j <= |x|
    ensures s[a + i..a + j] == x[i..j]
  {
    forall k | 0 <= k < j - i
      ensures s[a + i..a + j][k] == x[i..j][k]
    {
      assert s[a..a + |x|][i + k] == x[i + k];
    }
  }

  /** A stream that holds `u + v` at offset `a` holds `u` there and `v`
      right after it. */
  lemma SplitAt(s: seq<byte>, a: nat, u: seq<byte>, v: seq<byte>)
    requires a + |u| + |v| <= |s| && s[a..a + |u| + |v|] == u + v
    ensures s[a..a + |u|] == u
    ensures s[a + |u|..a + |u| + |v|] == v
  {
    SliceOfSlice(s, a, u + v, 0, |u|);
    SliceOfSlice(s, a, u + v, |u|, |u| + |v|);
    assert (u + v)[..|u|] == u;
    assert (u + v)[|u|..] == v;
  }

  /** Regrouping a concatenation of five byte runs. The writer emits a meta
      event as delta, the first two message bytes, length and payload; the
      reader sees delta, 0xFF, then the type byte, length and payload. */
  lemma Regroup(d: seq<byte>, a: seq<byte>, b: seq<byte>, e: seq<byte>, c: seq<byte>)
    ensures d + (a + b) + e + c == d + a + (b + e + c)
  {
  }
}

=== FILE: tracks.dfy ===
/** The per-track event codec: a track payload is a run of events, each a
    delta time followed by a message, where a message may leave out its
    status byte when it repeats the running status. The decoder and the
    encoder each keep their own running status and pass it along explicitly. */
module Tracks {
  import opened Results
  import opened VarInt
  import opened Messages
  import opened Chunks

  /** A byte with bit 0x80 set: the only bytes the decoder remembers as
      running status. */
  type StatusByte = b: byte | b >= 0x80 witness 0x80

  /** A delta time in ticks and the raw bytes of one message. */
  datatype Event = Event(delta: nat, msg: seq<byte>)

  type Track = seq<Event>

  /** The first byte of the message a status byte opens: both sysex status
      bytes are read back as 0xF0. */
  function Opener(status: byte): byte
  {
    if status == SysexEnd then SysexStart else status
  }

  /** What every decoded message looks like: it opens with a status byte,
      0xFF opens a meta event with its type byte, 0xF0 opens a sysex message
      closed by 0xF7, and 0xF7 never opens one. */
  predicate DecodedShape(msg: seq<byte>)
  {
    && |msg| >= 1 && msg[0] >= 0x80 && msg[0] != SysexEnd
    && (msg[0] == MetaStatus ==> IsMeta(msg))
    && (msg[0] == SysexStart ==> |msg| >= 2 && msg[|msg| - 1] == SysexEnd)
  }

  /** `is_meta` on what the reader produces: a decoded message is a meta
      event exactly when 0xFF opens it. */
  lemma DecodedIsMeta(msg: seq<byte>)
    requires DecodedShape(msg)
    ensures IsMeta(msg) <==> msg[0] == MetaStatus
  {
  }

  /** The message an effective status byte opens, read from `pos`; meta and
      sysex readers drop a data byte peeked under running status. */
  function ReadBody(s: seq<byte>, pos: nat, end: nat, status: StatusByte, peek: seq<byte>): (r: Result<(seq<byte>, nat)>)
    requires pos <= end <= |s| && |peek| <= 1
    ensures r.Ok? ==> pos <= r.value.1 <= end && DecodedShape(r.value.0) && r.value.0[0] == Opener(status)
    ensures r.Err? ==> r.error == Truncated || r.error == UnknownStatus
  {
    if status == MetaStatus then ReadMetaMessage(s, pos, end)
    else if status == SysexStart || status == SysexEnd then ReadSysex(s, pos, end)
    else ReadMessage(s, pos, end, status, peek)
  }

  /** A channel or system-common message keeps the byte peeked under running
      status as its first data byte. */
  lemma ReadBodyKeepsPeek(s: seq<byte>, pos: nat, end: nat, status: StatusByte, peek: seq<byte>)
    requires pos <= end <= |s| && |peek| <= 1
    requires status !in {MetaStatus, SysexStart, SysexEnd}
    ensures var r := ReadBody(s, pos, end, status, peek);
      r.Ok? ==> |r.value.0| >= 1 + |peek| && r.value.0[1..1 + |peek|] == peek
  {
    ReadMessageSpec(s, pos, end, status, peek);
  }

  /** Where the byte after an event's delta time sits, when the delta time
      reads and a byte follows it inside the track. */
  function StatusAt(s: seq<byte>, pos: nat, end: nat): (r: Option<nat>)
    requires pos <= end <= |s|
    ensures r.Some? ==> pos < r.value < end
  {
    var d := ReadVarInt(s, pos, end);
    if d.Ok? && d.value.1 < end then Some(d.value.1) else None
  }

  /** One pass of the loop in `read_track`: a delta time, a status byte or a
      data byte under running status, and the message. Every status byte
      other than 0xFF becomes the new running status; a meta event leaves it
      as it was. */
  function DecodeEvent(s: seq<byte>, pos: nat, end: nat, last: Option<StatusByte>): (r: Result<(Event, nat, Option<StatusByte>)>)
    requires pos <= end <= |s|
    ensures r.Ok? ==> pos < r.value.1 <= end && DecodedShape(r.value.0.msg)
  {
    var delta :- ReadVarInt(s, pos, end);
    var p := delta.1;
    if p == end then Err(Truncated)
    else if s[p] < 0x80 then
      match last
      case None => Err(NoRunningStatus)
      case Some(status) =>
        var body :- ReadBody(s, p + 1, end, status, [s[p]]);
        Ok((Event(delta.0, body.0), body.1, last))
    else
      var last' := if s[p] != MetaStatus then Some(s[p] as StatusByte) else last;
      var body :- ReadBody(s, p + 1, end, s[p], []);
      Ok((Event(delta.0, body.0), body.1, last'))
  }

  /** What one pass of the loop decides: a data byte with no running status
      is the only way to get `NoRunningStatus`; the event's delta time is the
      quantity read at `pos`; a data byte reuses the running status, keeps it,
      and stays in the message of a channel status; a status byte opens the
      message and becomes the running status unless it is 0xFF. */
  lemma DecodeEventSpec(s: seq<byte>, pos: nat, end: nat, last: Option<StatusByte>)
    requires pos <= end <= |s|
    ensures var r := DecodeEvent(s, pos, end, last);
      && ((StatusAt(s, pos, end).Some? && s[StatusAt(s, pos, end).value] < 0x80 && last.None?) <==> r == Err(NoRunningStatus))
      && (r.Ok? ==> StatusAt(s, pos, end).Some? && r.value.0.delta == ReadVarInt(s, pos, end).value.0)
      && (r.Ok? ==> var b := s[StatusAt(s, pos, end).value]; var (ev, _, last') := r.value;
           && (b < 0x80 ==> last.Some? && last' == last && ev.msg[0] == Opener(last.value))
           && (b < 0x80 && last.value !in {MetaStatus, SysexStart, SysexEnd} ==> |ev.msg| >= 2 && ev.msg[1] == b)
           && (b >= 0x80 ==> ev.msg[0] == Opener(b) && last' == (if b == MetaStatus then last else Some(b))))
  {
    var r := DecodeEvent(s, pos, end, last);
    var d := ReadVarInt(s, pos, end);
    if d.Ok? && d.value.1 < end {
      var p := d.value.1;
      if s[p] < 0x80 && last.Some? && last.value !in {MetaStatus, SysexStart, SysexEnd} {
        ReadBodyKeepsPeek(s, p + 1, end, last.value, [s[p]]);
      }
    }
  }

  /** The loop of `read_track` over a payload ending at `end`: events are
      read until the cursor stands exactly at `end`. */
  function ReadEvents(s: seq<byte>, pos: nat, end: nat, last: Option<StatusByte>): (r: Result<Track>)
    requires pos <= end <= |s|
    ensures r.Ok? ==> forall i :: 0 <= i < |r.value| ==> DecodedShape(r.value[i].msg)
    ensures pos == end ==> r == Ok([])
    ensures r.Ok? && pos < end ==> |r.value| >= 1
    decreases end - pos
  {
    if pos == end then Ok([])
    else
      var first :- DecodeEvent(s, pos, end, last);
      var rest :- ReadEvents(s, first.1, end, first.2);
      Ok([first.0] + rest)
  }

  /** `read_track`: an "MTrk" chunk at `pos`, its events decoded with running
      status unset at the start, and the position after the chunk. A payload
      longer than the rest of the stream can never end exactly at its
      declared size, so it fails. */
  function ReadTrack(s: seq<byte>, pos: nat): (r: Result<(Track, nat)>)
    requires pos <= |s|
    ensures r.Ok? ==> pos + 8 <= r.value.1 <= |s|
  {
    var chunk :- ReadChunkHeader(s, pos);
    var (header, p) := chunk;
    if header.tag != TrackTag then Err(NoTrackHeader)
    else if p + header.size > |s| then Err(Truncated)
    else
      var track :- ReadEvents(s, p, p + header.size, None);
      Ok((track, p + header.size))
  }

  /** What `read_track` checks and returns: a chunk not tagged "MTrk" fails
      with `NoTrackHeader`; a track that reads back carries the "MTrk" tag,
      ends exactly where its header's size says, and holds only events of
      the shapes the decoder builds. */
  lemma ReadTrackSpec(s: seq<byte>, pos: nat)
    requires pos <= |s|
    ensures pos + 8 <= |s| && s[pos..pos + 4] != TrackTag ==> ReadTrack(s, pos) == Err(NoTrackHeader)
    ensures ReadTrack(s, pos).Ok? ==> s[pos..pos + 4] == TrackTag
    ensures ReadTrack(s, pos).Ok? ==> ReadChunkHeader(s, pos).Ok? && ReadTrack(s, pos).value.1 == pos + 8 + ReadChunkHeader(s, pos).value.0.size
    ensures ReadTrack(s, pos).Ok? ==> forall i :: 0 <= i < |ReadTrack(s, pos).value.0| ==> DecodedShape(ReadTrack(s, pos).value.0[i].msg)
  {
  }

  /** One pass of the loop in `write_track`: the delta time, then the
      message. A meta event is written with its payload length, a message
      starting with 0xF0 with the length of everything after the 0xF0, and
      any other message without its status byte exactly when that byte is
      the running status. Meta and sysex events clear the running status; any
      other message sets it to its status byte below 0xF0 and clears it
      otherwise. */
  function EncodeEvent(ev: Event, rs: Option<byte>): (r: Result<(seq<byte>, Option<byte>)>)
    ensures r.Err? <==> |ev.msg| == 0
    ensures r.Err? ==> r.error == EmptyMessage
    ensures r.Ok? ==> var d := EncodeVarInt(ev.delta); |d| <= |r.value.0| && r.value.0[..|d|] == d
    ensures r.Ok? && (IsMeta(ev.msg) || ev.msg[0] == SysexStart) ==> r.value.1 == None
    ensures r.Ok? && !IsMeta(ev.msg) && ev.msg[0] != SysexStart ==>
      var (out, rs') := r.value; var d := |EncodeVarInt(ev.delta)|;
      && |out| == d + |ev.msg| - (if rs == Some(ev.msg[0]) then 1 else 0)
      && out[|out| - (|ev.msg| - 1)..] == ev.msg[1..]
      && (rs != Some(ev.msg[0]) ==> out[d] == ev.msg[0])
      && rs' == (if ev.msg[0] < 0xF0 then Some(ev.msg[0]) else None)
  {
    var delta := EncodeVarInt(ev.delta);
    var msg := ev.msg;
    if IsMeta(msg) then
      Ok((delta + msg[..2] + EncodeVarInt(|msg| - 2) + msg[2..], None))
    else if |msg| == 0 then
      Err(EmptyMessage)
    else if msg[0] == SysexStart then
      // The length field counts everything after the 0xF0, the closing 0xF7
      // included. The source computes it from a `data` attribute that a byte
      // string lacks; see EncodeEventAsWritten.
      Ok((delta + [SysexStart] + EncodeVarInt(|msg| - 1) + msg[1..], None))
    else
      var status := msg[0];
      var body := if rs == Some(status) then msg[1..] else msg;
      Ok((delta + body, if status < 0xF0 then Some(status) else None))
  }

  /** One pass of the loop in `write_track` as the source spells it: for a
      message starting with 0xF0 the length is taken from `msg.data`, an
      attribute a byte string does not have, so every sysex event fails to
      be written. Every other event is written as `EncodeEvent` writes it. */
  function EncodeEventAsWritten(ev: Event, rs: Option<byte>): (r: Result<(seq<byte>, Option<byte>)>)
    ensures |ev.msg| > 0 && !IsMeta(ev.msg) && ev.msg[0] == SysexStart ==> r == Err(NoDataAttribute)
    ensures r.Ok? ==> r == EncodeEvent(ev, rs)
  {
    var msg := ev.msg;
    if |msg| > 0 && !IsMeta(msg) && msg[0] == SysexStart then Err(NoDataAttribute)
    else EncodeEvent(ev, rs)
  }

  /** The loop of `write_track`: the events encoded in order, threading the
      running status from one to the next. */
  function EncodeEvents(t: Track, rs: Option<byte>): (r: Result<seq<byte>>)
    ensures r.Err? <==> exists i :: 0 <= i < |t| && |t[i].msg| == 0
    ensures r.Err? ==> r.error == EmptyMessage
    ensures r.Ok? ==> |r.value| >= |t|
  {
    if |t| == 0 then Ok([])
    else
      var first :- EncodeEvent(t[0], rs);
      var rest :- EncodeEvents(t[1..], first.1);
      Ok(first.0 + rest)
  }

  /** `write_track`: the events encoded with running status unset at the
      start, wrapped in an "MTrk" chunk. */
  function WriteTrack(t: Track): (r: Result<seq<byte>>)
    ensures r.Ok? <==> EncodeEvents(t, None).Ok? && |EncodeEvents(t, None).value| < Fields.TwoTo32
    ensures r.Ok? ==> |r.value| >= 8 && r.value[..4] == TrackTag
  {
    var data :- EncodeEvents(t, None);
    WriteChunk(TrackTag, data)
  }
}

=== FILE: varint.dfy ===
/** Variable-length quantities: delta times and meta/sysex payload lengths,
    written as base-128 digits, most significant first, with bit 0x80 set on
    every byte but the last. */
module VarInt {
  import opened Results

  /** The number a run of base-128 digits denotes, most significant digit
      first; bit 0x80 of every byte is ignored. This is the reference reading
      that both the encoder and the decoder are checked against. */
  function DigitsValue(d: seq<byte>): nat
  {
    if |d| == 0 then 0 else DigitsValue(d[..|d| - 1]) * 0x80 + d[|d| - 1] % 0x80
  }

  /** The shape of a canonical variable-length quantity: a final byte below
      0x80, continuation bytes before it, and no leading zero digit. */
  ghost predicate Canonical(d: seq<byte>)
  {
    && |d| >= 1
    && d[|d| - 1] < 0x80
    && (forall i :: 0 <= i < |d| - 1 ==> d[i] >= 0x80)
    && (|d| > 1 ==> d[0] != 0x80)
  }

  /** The digits of a positive `n`, every one carrying the continuation bit. */
  function Continued(n: nat): (r: seq<byte>)
    requires n > 0
    ensures |r| >= 1
  {
    if n < 0x80 then [n + 0x80] else Continued(n / 0x80) + [n % 0x80 + 0x80]
  }

  /** Every digit of `Continued(n)` carries the continuation bit, and the
      first is not a zero digit. */
  lemma {:induction false} ContinuedShape(n: nat)
    requires n > 0
    ensures Continued(n)[0] > 0x80
    ensures forall i :: 0 <= i < |Continued(n)| ==> Continued(n)[i] >= 0x80
  {
    if n >= 0x80 {
      ContinuedShape(n / 0x80);
    }
  }

  /** `encode_variable_int`: the shortest base-128 encoding of `n`. */
  function EncodeVarInt(n: nat): (r: seq<byte>)
    ensures |r| >= 1 && r[|r| - 1] < 0x80
    ensures |r| == 1 <==> n < 0x80
  {
    if n < 0x80 then [n] else Continued(n / 0x80) + [n % 0x80]
  }

  /** The encoding is canonical, and zero is the single byte 0x00. */
  lemma EncodeVarIntCanonical(n: nat)
    ensures Canonical(EncodeVarInt(n))
    ensures n == 0 <==> EncodeVarInt(n) == [0]
  {
    if n >= 0x80 {
      ContinuedShape(n / 0x80);
    }
  }

  lemma {:induction false} ContinuedValue(n: nat)
    requires n > 0
    ensures DigitsValue(Continued(n)) == n
  {
    if n >= 0x80 {
      var c := Continued(n / 0x80);
      var r := c + [n % 0x80 + 0x80];
      assert r[..|r| - 1] == c;
      ContinuedValue(n / 0x80);
    }
  }

  /** The encoder's digits denote the number it was given. */
  lemma {:induction false} EncodeVarIntValue(n: nat)
    ensures DigitsValue(EncodeVarInt(n)) == n
  {
    if n >= 0x80 {
      var c := Continued(n / 0x80);
      var r := c + [n % 0x80];
      assert r[..|r| - 1] == c;
      ContinuedValue(n / 0x80);
    }
  }

  lemma {:induction false} ContinuedPositive(d: seq<byte>)
    requires |d| >= 1 && d[0] > 0x80
    ensures DigitsValue(d) > 0
  {
    if |d| > 1 {
      ContinuedPositive(d[..|d| - 1]);
    }
  }

  lemma {:induction false} ContinuedUnique(d: seq<byte>, n: nat)
    requires n > 0 && |d| >= 1 && d[0] > 0x80
    requires forall i :: 0 <= i < |d| ==> d[i] >= 0x80
    requires DigitsValue(d) == n
    ensures d == Continued(n)
  {
    var init := d[..|d| - 1];
    if |d| == 1 {
      assert DigitsValue(init) == 0;
    } else {
      ContinuedPositive(init);
      assert n / 0x80 == DigitsValue(init);
      ContinuedUnique(init, n / 0x80);
      assert d == init + [d[|d| - 1]];
    }
  }

  /** The encoding is the only canonical one: any canonical digit run that
      denotes `n` is exactly `EncodeVarInt(n)`. */
  lemma {:induction false} EncodeVarIntUnique(d: seq<byte>, n: nat)
    requires Canonical(d) && DigitsValue(d) == n
    ensures d == EncodeVarInt(n)
  {
    var init := d[..|d| - 1];
    if |d| == 1 {
      assert DigitsValue(init) == 0;
    } else {
      assert init[0] == d[0];
      ContinuedPositive(init);
      assert n / 0x80 == DigitsValue(init);
      ContinuedUnique(init, n / 0x80);
      assert d == init + [d[|d| - 1]];
    }
  }

  /** Boundary encodings of Standard MIDI Files 1.0: 0, 127, 128, 16383 and 16384. */
  lemma EncodeVarIntBoundaries()
    ensures EncodeVarInt(0) == [0x00]
    ensures EncodeVarInt(127) == [0x7F]
    ensures EncodeVarInt(128) == [0x81, 0x00]
    ensures EncodeVarInt(16383) == [0xFF, 0x7F]
    ensures EncodeVarInt(16384) == [0x81, 0x80, 0x00]
  {
  }

  /** Continues reading a quantity whose first `pos - start` bytes have
      already been folded into `acc`. */
  function ReadVarIntFrom(s: seq<byte>, start: nat, pos: nat, end: nat, acc: nat): (r: Result<(nat, nat)>)
    requires start <= pos <= end <= |s|
    ensures r.Ok? ==> pos < r.value.1 <= end
    ensures r.Err? ==> r.error == Truncated
    decreases end - pos
  {
    if pos == end then Err(Truncated)
    else
      var b := s[pos];
      // (acc << 7) | (b & 0x7f): the shifted accumulator has its low seven bits clear
      var acc' := acc * 0x80 + b % 0x80;
      if b < 0x80 then Ok((acc', pos + 1))
      else ReadVarIntFrom(s, start, pos + 1, end, acc')
  }

  /** `read_variable_int`: reads bytes from `pos` up to and including the
      first one below 0x80, and returns the value with the position after
      it. */
  function ReadVarInt(s: seq<byte>, pos: nat, end: nat): (r: Result<(nat, nat)>)
    requires pos <= end <= |s|
    ensures r.Ok? ==> pos < r.value.1 <= end
    ensures r.Err? ==> r.error == Truncated
  {
    ReadVarIntFrom(s, pos, pos, end, 0)
  }

  lemma {:induction false} ReadVarIntFromSpec(s: seq<byte>, start: nat, pos: nat, end: nat, acc: nat)
    requires start <= pos <= end <= |s|
    requires acc == DigitsValue(s[start..pos])
    requires forall i :: start <= i < pos ==> s[i] >= 0x80
    ensures var r := ReadVarIntFrom(s, start, pos, end, acc);
      && (r.Ok? ==> s[r.value.1 - 1] < 0x80)
      && (r.Ok? ==> forall i :: start <= i < r.value.1 - 1 ==> s[i] >= 0x80)
      && (r.Ok? ==> r.value.0 == DigitsValue(s[start..r.value.1]))
      && (r.Err? <==> forall i :: pos <= i < end ==> s[i] >= 0x80)
    decreases end - pos
  {
    if pos < end {
      var acc' := acc * 0x80 + s[pos] % 0x80;
      assert s[start..pos + 1][..pos - start] == s[start..pos];
      if s[pos] >= 0x80 {
        ReadVarIntFromSpec(s, start, pos + 1, end, acc');
      }
    }
  }

  /** What `ReadVarInt` reads: it stops at the first byte below 0x80, every
      byte before that one has bit 0x80 set, the value is the number those
      digits denote, and it fails exactly when no byte below 0x80 lies
      before `end`. */
  lemma ReadVarIntSpec(s: seq<byte>, pos: nat, end: nat)
    requires pos <= end <= |s|
    ensures var r := ReadVarInt(s, pos, end);
      && (r.Ok? ==> s[r.value.1 - 1] < 0x80)
      && (r.Ok? ==> forall i :: pos <= i < r.value.1 - 1 ==> s[i] >= 0x80)
      && (r.Ok? ==> r.value.0 == DigitsValue(s[pos..r.value.1]))
      && (r.Err? <==> forall i :: pos <= i < end ==> s[i] >= 0x80)
  {
    ReadVarIntFromSpec(s, pos, pos, end, 0);
  }

  /** Round trip: reading an encoded quantity returns the number and consumes
      exactly the bytes of its encoding. */
  lemma ReadEncodedVarInt(s: seq<byte>, pos: nat, end: nat, n: nat, k: nat)
    requires k == pos + |EncodeVarInt(n)| <= end <= |s|
    requires s[pos..k] == EncodeVarInt(n)
    ensures ReadVarInt(s, pos, end) == Ok((n, k))
  {
    var e := EncodeVarInt(n);
    EncodeVarIntCanonical(n);
    assert forall i :: pos <= i < k ==> s[i] == e[i - pos];
    assert s[k - 1] < 0x80;
    var r := ReadVarInt(s, pos, end);
    ReadVarIntSpec(s, pos, end);
    assert r.Ok?;
    var next := r.value.1;
    assert next == k;
    EncodeVarIntValue(n);
  }
}
